=== FILE: README.md ===
# cackalacky-badge-api in Dafny

A model of the backend of the Cackalacky conference badge: the FastAPI
service that pairs badges with Discord users through short registration
codes, runs the capture-the-flag achievements, queues events for badges,
records game scores and breathalyser readings, and talks to PostgreSQL,
MySQL and Redis.

Each part of the service is a pure transition over immutable state:

- **Storage.** The PostgreSQL tables are sequences of rows:
  - users, events, achievements, unlocks, staff;
  - the badge event queue, game scores, readings, badge registrations.
- **Redis.** The key/value store is a map from keys to values with expiry times (`Cache`). Its publish/subscribe channels are a log of `(channel, payload)` messages (`PubSub`).
- **Outside inputs.** Whatever comes from outside the service is a parameter:
  - the clock, as whole seconds;
  - SHA-256;
  - the random staff draw;
  - the fact web service;
  - which database calls fail.
- **Request handlers.** Each handler maps the current `World` (database, store, clock, message log) to a new `World` and its reply.

Modules follow the source files:

- **Helpers:**
  - `Wrappers` for `Option` and `Result`;
  - `Text` for Python string semantics;
  - `Utf8`, `Base64` and `EncryptDecrypt` for `utilities/encrypt_decrypt.py`.
- **Connectors:** `PgSql` and `MySql` for `connectors/`.
- **Stores:** `Cache` and `PubSub` for Redis; `Backend` for the shared world.
- **Utilities:** `Users`, `Events`, `Achievements` and `ProcessCtfAction` for `utilities/`.
- **Routers:** `CaptureTheFlag`, `Badge`, `BadgeQueue`, `Games`, `Alcohol` and `BadgeRegistration` for `routers/`.
- **Request gate:** `Dependencies` for `dependencies.py`.
- **Shared HTTP pieces:** `Http` for HTTP errors, `Paging` for the page checks and `LIMIT`/`OFFSET` builders of the listing routers.

Where the source's comments and its code disagree, the model follows the code:

- `generate_short_hash` keeps 8 hex characters, not the 6 its comment says.
- A `sortBy` outside the mapper raises. It does not fall back to the `"default"` entry.

## Model

| member | source | states |
|---|---|---|
| EncryptDecrypt.XorCharInvolution | utilities/encrypt_decrypt.py:6-21 | XOR with 0x69 applied twice gives back every character. |
| EncryptDecrypt.XorAllInvolution | utilities/encrypt_decrypt.py:11-21 | The per-character XOR applied twice gives back every string. |
| EncryptDecrypt.XorCharAscii | utilities/encrypt_decrypt.py:11 | A character is ASCII exactly when its XOR with the key is ASCII. |
| EncryptDecrypt.XorChar | utilities/encrypt_decrypt.py:11 | `chr(ord(c) ^ 0x69)` only changes the low byte of the code point, so the result is again a scalar value. |
| EncryptDecrypt.Encoder | utilities/encrypt_decrypt.py:9-15 | The encoded text has 4·⌈n/3⌉ characters for n UTF-8 bytes of the XORed input. |
| EncryptDecrypt.DecoderEncoder | utilities/encrypt_decrypt.py:9-24 | `decoder(encoder(s)) == s` for every string of Unicode scalar values. |
| EncryptDecrypt.EncoderAsciiLength | utilities/encrypt_decrypt.py:11-13 | ASCII input gives one UTF-8 byte per character, so the code has 4·⌈len(s)/3⌉ characters. |
| EncryptDecrypt.EncoderAlphabet | utilities/encrypt_decrypt.py:13 | Every character of the encoder's output is a Base64 alphabet character or `=`. |
| EncryptDecrypt.Decoder | utilities/encrypt_decrypt.py:17-24 | The decoder succeeds exactly when the text is accepted Base64 and its bytes are UTF-8. The result's XOR with the key is the decoded text. |
| EncryptDecrypt.DecoderRejectsNonUtf8 | utilities/encrypt_decrypt.py:20 | The Base64 text of every payload that is not UTF-8 makes the decoder fail. |
| EncryptDecrypt.DecoderRejectsLoneFF | utilities/encrypt_decrypt.py:20 | `/w==`, the single byte 0xFF, makes the decoder fail. |
| Base64.Encode | utilities/encrypt_decrypt.py:13 | `b64encode` output has 4·⌈n/3⌉ characters for n bytes. |
| Base64.DecodeEncode | utilities/encrypt_decrypt.py:13-20 | `b64decode` inverts `b64encode` on every byte string. |
| Base64.ForeignCharacterRejected | utilities/encrypt_decrypt.py:20 | The model's strict decoder rejects any text holding a character that is neither in the alphabet nor `=`, wherever it stands. Python's default `b64decode` discards such characters instead. |
| Utf8.DecodeEncode | utilities/encrypt_decrypt.py:12-20 | Strict UTF-8 decoding inverts encoding on every string of scalar values. |
| Utf8.EncodeAsciiLength | utilities/encrypt_decrypt.py:12 | ASCII text encodes to exactly one byte per character. |
| Utf8.SurrogateRejected | utilities/encrypt_decrypt.py:20 | Every encoded surrogate (`ED A0..BF 80..BF`, U+D800..U+DFFF) is rejected wherever it follows well-formed text, whatever comes after it. |
| PgSql.Nullify | connectors/pgsql.py:20-21 | `nullify` is the identity: None stays None and every other value passes unchanged. |
| PgSql.Connect | connectors/pgsql.py:29-37 | An existing pool is kept. Without one, a pool of 1..limit is created, or the call raises when creation fails. |
| PgSql.ConnectIdempotent | connectors/pgsql.py:29-37 | Connecting again after a successful connect changes nothing. |
| PgSql.Release | connectors/pgsql.py:44-55 | Connections are neither lost nor created. The released connection goes back to the idle set unless closing the cursor failed. Every other connection in use stays in use. |
| PgSql.ReleaseTwice | connectors/pgsql.py:44-55 | Releasing the same connection a second time has no effect. |
| PgSql.ExecuteLoop | connectors/pgsql.py:57-89 | The loop stops at the first pass that returns or raises, or once the budget is spent. A returning insert gives the fetched first column; other statements give None. The budget never exceeds its bound before the last pass. |
| PgSql.Execute | connectors/pgsql.py:57-89 | At most 4 passes, from a budget of 3 while `>= 0`. A value comes back only for a query containing "insert into". |
| PgSql.TwoCheckoutFailuresExhaust | connectors/pgsql.py:65-89 | A failed checkout costs two units, so two of them end the call with None after two passes. |
| PgSql.FourStatementFailures | connectors/pgsql.py:65-89 | Statement failures alone give exactly four passes, then None. |
| PgSql.InsertCommittedRepeatedly | connectors/pgsql.py:77-89 | An insert whose row cannot be fetched has committed and is run again, up to four commits in one call. |
| PgSql.SelectLoop | connectors/pgsql.py:91-110 | Only database errors are retried, one unit each. Other exceptions propagate. Exhaustion returns None. |
| PgSql.Select | connectors/pgsql.py:91-110 | At most four passes; None exactly when the first four passes all failed. |
| MySql.Release | connectors/mysql.py:38-48 | A connected connection is closed unless closing the cursor fails. A disconnected one is left alone. |
| MySql.ReleaseTwice | connectors/mysql.py:38-48 | Releasing twice is releasing once. |
| MySql.ExecuteLoop | connectors/mysql.py:50-74 | Only driver errors consume the budget, so the loop stops after at most budget+1 errors. "Not connected" passes cost nothing. The error count is exactly the failed passes. A committing pass ends the loop with its `lastrowid` for an insert and None otherwise. Running out of fuel means no pass committed. |
| MySql.DoneAfterErrors | connectors/mysql.py:55-74 | A committing pass after fewer errors than the budget allows ends the loop with its `lastrowid` (insert) or None. |
| MySql.InsertReturnsLastRowId | connectors/mysql.py:50-74 | An insert that commits within the first four passes, after only driver errors, returns that pass's `lastrowid`. |
| MySql.Execute | connectors/mysql.py:50-74 | At most four erroring passes. A value is returned exactly when the query is an insert and the last pass committed, and it is that pass's `lastrowid`. |
| MySql.NotConnectedNeverEnds | connectors/mysql.py:55-61 | A connection that is never connected keeps the loop running for as long as any fuel allows, spending no budget. |
| MySql.FourErrorsExhaust | connectors/mysql.py:55-74 | Four driver errors exhaust the budget and the call falls through to None. |
| MySql.SelectLoop | connectors/mysql.py:76-93 | Same budget rules for `select_dataframe`, with the error count exactly the failed reads. None is returned exactly when the budget is exhausted. A successful read ends the loop with its rows. Running out of fuel means no read succeeded. |
| MySql.Select | connectors/mysql.py:76-93 | At most four erroring passes. None exactly when four reads failed. A successful read returns its rows. |
| MySql.RowsAfterErrors | connectors/mysql.py:80-93 | A successful read after fewer errors than the budget allows returns its rows. |
| MySql.SelectReturnsRows | connectors/mysql.py:76-93 | A read that succeeds within the first four passes, after only driver errors, returns that read's rows. |
| MySql.FourSelectErrorsExhaust | connectors/mysql.py:80-93 | Four failed reads exhaust the budget and the call falls through to None. |
| Cache.Get | routers/badge.py:41 | A key is returned exactly when it is present and not expired, with its stored value. |
| Cache.Set | routers/badge.py:62-63 | The key gets the value and expiry now+ttl. Every other key is untouched. |
| PubSub.Publish | utilities/process_ctf_action.py:62-71 | A publish appends exactly that one message to the log. |
| Users.Matching | utilities/users.py:21-27 | The rows selected are exactly those whose uuid and MAC address both equal the inputs. |
| Users.FirstMatch | utilities/users.py:31-34 | None exactly when no row matches. Otherwise the result is a matching row of the table. |
| Users.GetUserByDevice | utilities/users.py:20-46 | A failing query gives None. Otherwise None is returned exactly when no row matches. A returned record is a table row with the same uuid and MAC address. |
| Users.GetUserIsFirstOfMatching | utilities/users.py:34-43 | With several matches, the first matching row is returned, copied field for field. |
| Events.LogEvent | utilities/events.py:8-18 | A failing insert leaves the log as it was and returns None. Otherwise exactly one row `(event_id, uuid, mac)` is appended and its fresh id returned. The new id differs from every earlier one. |
| Achievements.Catalogue | utilities/achievements.py:36-50 | The catalogue lists the eight fixed records in table order. |
| Achievements.CatalogueShape | utilities/achievements.py:36-50 | Eight records with pairwise distinct ids 1..8 and points 1, 10, 5, 10, 10, 10, 10, 5. |
| Achievements.AccessorsDistinct | utilities/achievements.py:53-83 | Every property accessor returns a catalogue record, and different accessors give different ids. |
| Achievements.HasUnlockIffCounted | utilities/achievements.py:110-113 | An unlock row exists for a pair exactly when the pair's row count is positive. |
| Achievements.GetRandomStaffMember | utilities/achievements.py:86-101 | None for a failing query or an empty staff table. Otherwise `randint(1, n) - 1` picks an existing staff row. |
| Achievements.EveryStaffMemberReachable | utilities/achievements.py:96-97 | Every staff row is chosen by some draw. |
| Achievements.FindAchievement | utilities/achievements.py:104-121 | None exactly when no catalogue row has the id. A result has that id. |
| Achievements.GetAchievementView | utilities/achievements.py:104-133 | None on failure or for an unknown id. Otherwise the flag is 1 exactly when an unlock row exists for (user, id), and 0 exactly when none does. |
| Achievements.InsertUserAchievement | utilities/achievements.py:136-147 | Exactly one row is appended with no duplicate check, and its id is returned. The pair's count goes up by one and no other pair's count changes. A failure returns None and changes nothing. |
| Achievements.InsertTwiceDuplicates | utilities/achievements.py:136-147 | Two inserts for the same pair leave two rows for it. |
| ProcessCtfAction.SendFact | utilities/process_ctf_action.py:53-71 | The database and all other store keys are untouched. A live `last_sent_fact` changes nothing. A fact is published exactly when the record was absent, the fetch returned JSON and a staff member was drawn. In that case exactly one `fact` message carries the text stored under `last_sent_fact`, which expires 60 s later. An unreachable fact service raises and changes nothing. |
| ProcessCtfAction.FactRateLimit | utilities/process_ctf_action.py:59-71 | Once a fact is published, no other fact is published until its record expires 60 s later. |
| ProcessCtfAction.CtfAction | utilities/process_ctf_action.py:74-120 | A missing uuid or MAC gives SUCCESS with the default message and no change. With both ids present, exactly one event row is logged before anything else. Users, catalogue, staff and clock are unchanged. At most two messages are appended. |
| ProcessCtfAction.CtfActionUnregistered | utilities/process_ctf_action.py:82-114 | An unregistered device gives ERROR "User device is not registered: …". No unlock is inserted and nothing is published. |
| ProcessCtfAction.CtfActionMissingAchievement | utilities/process_ctf_action.py:86-118 | A missing achievement row gives ERROR "Some unknown …" with no unlock and no publish. |
| ProcessCtfAction.CtfActionAlreadyUnlocked | utilities/process_ctf_action.py:89-95 | An achievement already held adds no row and publishes "{handle} has already unlocked: {name}" on `community-message`. "Badge Access Point" is shown as "[REDACTED]". |
| ProcessCtfAction.CtfActionFirstUnlock | utilities/process_ctf_action.py:96-110 | A first unlock inserts one row for (user, achievement). It publishes handle, name, description and points on `achievement`, and replies "{handle} unlocked: {name} for {points} points!". The unlock persists even when the fact step then fails. |
| ProcessCtfAction.CtfActionKeepsPairAtMostOnce | utilities/process_ctf_action.py:86-98 | One call never gives a pair a second unlock row. |
| ProcessCtfAction.CtfActionWhileFactLive | utilities/process_ctf_action.py:59-60 | While `last_sent_fact` is live, a call leaves the store as it was and publishes no fact. |
| ProcessCtfAction.Run | utilities/process_ctf_action.py:74-120 | Sequential requests only ever append to the message log. |
| ProcessCtfAction.RunKeepsPairAtMostOnce | utilities/process_ctf_action.py:86-98 | Any sequence of requests leaves at most one unlock row per (user, achievement) pair. |
| ProcessCtfAction.RunKeepsUnlocksUnique | utilities/achievements.py:110-112 | The unlock table stays duplicate-free across sequential requests. |
| ProcessCtfAction.RunSendsNoFactWhileLive | utilities/process_ctf_action.py:59-71 | Requests arriving before the recorded fact expires leave the store unchanged and publish no fact. |
| CaptureTheFlag.Capture | routers/capturetheflag.py:43-82 | An empty uuid or MAC logs no event and publishes "Someone just got Rick Rolled. #pwnd.". Otherwise event 17 is logged first. Users, catalogue and staff are unchanged, and at most one message is published. |
| CaptureTheFlag.CaptureTheFlag | routers/capturetheflag.py:35-85 | The request succeeds exactly when the code decodes and splits on `&` into at least two parts. It then always redirects to https://rb.gy/8dpuen with 302, after handling parts 0 and 1 as uuid and MAC. |
| CaptureTheFlag.CodeRoundTrip | routers/capturetheflag.py:38-42 | The encoded code of `uuid&mac` is decoded back into exactly that uuid and MAC. |
| CaptureTheFlag.CodeWithoutSeparatorFails | routers/capturetheflag.py:40-42 | A decoded code without `&` fails before any event is logged. |
| CaptureTheFlag.CaptureFirstTime | routers/capturetheflag.py:46-68 | A registered user without Rick Rolled gets achievement 1 inserted and one `achievement` publish, and no community message. |
| CaptureTheFlag.CaptureAgain | routers/capturetheflag.py:69-72 | A user who already has it gets "{handle} was already #pwnd. Guess they wanted more." and no insert. |
| CaptureTheFlag.CaptureUnregistered | routers/capturetheflag.py:49-76 | An unregistered badge gets "Someone got an achievement but didn't register their badge...". |
| CaptureTheFlag.CaptureKeepsPairAtMostOnce | routers/capturetheflag.py:53-57 | Capturing never gives a pair a second unlock row. |
| CaptureTheFlag.CtfEndpoint | routers/capturetheflag.py:88-136 | An endpoint runs the CTF action with the first matched user's uuid and MAC and event 17. It fails when the gate matched no user. |
| CaptureTheFlag.EndpointBindings | routers/capturetheflag.py:88-136 | HelloWorld→8, Serial→3, APConn→5, WebAuth→6, FlagTxt→7. The bindings are pairwise distinct and never Rick Rolled. |
| Badge.ShortHash | routers/badge.py:22-33 | The code is a prefix of the SHA-256 hex digest of uuid+mac+timestamp. It is 8 lowercase hex characters. |
| Badge.IdentityKeyOwnedOnlyByItself | routers/badge.py:48-62 | Splitting the identity key (uuid, a pipe, mac) on the pipe recovers (uuid, mac) when neither contains a pipe. Such a value is owned by exactly that pair. |
| Badge.CodeIsNotIdentityKey | routers/badge.py:31-63 | A hex code never equals an identity key, so the two directions never overwrite each other. |
| Badge.Probe | routers/badge.py:39-60 | The collision loop ends only on a code that is absent or owned by the same (uuid, mac). Each retry waits one second and hashes again. Every second it skipped held a live code whose value names another badge. It fails with MalformedEntry exactly where a live candidate's value has no `|` (the IndexError of line 48), after only collisions. It fails with CollisionRetriesExhausted exactly when every second the fuel allows collides. |
| Badge.SetRegistrationKeys | routers/badge.py:36-64 | The result is an 8-hex-char code hashed at the time of the write. Both directions are written with a 900 s expiry, and a live code of another badge is never overwritten. |
| Badge.NeverStealsLiveCode | routers/badge.py:46-53 | A live code mapped to a different identity is never chosen. |
| Badge.GetRegistrationCode | routers/badge.py:67-74 | Reads the live reverse entry and writes nothing. |
| Badge.PairingResolvesBothWays | routers/badge.py:62-74 | Until it expires, a fresh pairing resolves both ways: ids to code, and code to ids. |
| Badge.ObtainCode | routers/badge.py:104-110 | An existing non-empty code is returned unchanged. Otherwise a new code is paired and then readable. The database and message log are not touched. |
| Badge.Register | routers/badge.py:97-112 | A registered caller gets `"1"` and a null code with no change. An unregistered caller gets exactly the pairing result of the shared branch (`ObtainCode`), and the database and message log stay unchanged. |
| Badge.Report | routers/badge.py:126-131 | `hs` takes precedence over `status`. Each is forwarded only when truthy. |
| Badge.Verify | routers/badge.py:115-143 | A registered caller with a body publishes exactly one `high-score-processor` message with its report. Without a body nothing changes. |
| Badge.RegisterAndVerifyAgree | routers/badge.py:99-142 | Both endpoints give the same reply, store and clock. They differ only by the one message of a registered caller's body. |
| Badge.RegisterTwiceSameCode | routers/badge.py:107-109 | Registering again at once returns the same code and writes nothing. |
| Badge.TwoBadgesDistinctCodes | routers/badge.py:46-64 | Two badges paired while the first pairing is live get different codes. Both codes still resolve to their own badge. |
| Badge.PairingKeepsFactRecord | routers/badge.py:62-63 | Pairing never touches the fact rate limiter's record. |
| BadgeQueue.FirstPending | routers/badge.py:149-157 | The unread row with the lowest id for (uuid, MAC), or None when none is left. |
| BadgeQueue.MarkRead | routers/badge.py:161-164 | Exactly the rows with that id become read. |
| BadgeQueue.MarkReadRemoves | routers/badge.py:161-164 | Marking an id read removes exactly that id from every badge's pending set. |
| BadgeQueue.NextEvent | routers/badge.py:146-170 | The lowest pending id is returned and marked read. With nothing pending the result is `[]` and nothing changes. |
| BadgeQueue.Drain | routers/badge.py:146-170 | Polling until `[]` yields every pending event exactly once, in ascending id order. |
| BadgeQueue.Reset | routers/badge.py:174-179 | Every row becomes unread. |
| BadgeQueue.ResetMakesAllPending | routers/badge.py:174-179 | After a reset, every event addressed to the badge is pending again. |
| BadgeQueue.PollEndpoint | routers/badge.py:146-148 | The poll uses the first matched user's ids. It fails when the gate matched no user. |
| Dependencies.TokenHeader | dependencies.py:9-17 | `/capturetheflag` skips all checks. Elsewhere a missing `panda-xpress` gives 400 before `panda-mac` is checked. |
| Dependencies.Authenticate | dependencies.py:21-55 | Paths containing `/docs` or `/openapi` bypass authentication. `/config/mac/register` and `/capturetheflag` get fixed credentials and an empty user list without a lookup. Returned users all own the header pair. Rejections are 400s or the 401 for an unknown pair. |
| Dependencies.GatesAgreeOnMissingHeaders | dependencies.py:13-35 | Both gates reject a missing header with the same 400. |
| Dependencies.AuthenticateKnownAndUnknown | dependencies.py:45-55 | A known pair returns (uuid, mac) and every matching row. An unknown pair gives 401, except on `/badge/verify` and `/badge/register`, which get an empty user list. |
| Dependencies.FirstRequestUserOwnsDevice | dependencies.py:45-55 | `request.user[0]` is a row of the badge that sent the headers. |
| Paging.AddLimitAndOffset | routers/games.py:20-22 | The query is kept as a prefix and the LIMIT/OFFSET placeholders are appended. |
| Paging.CheckPage | routers/games.py:62-67 | page < 1 gives 400, checked before pageSize < 1 gives 400. Otherwise no error. |
| Paging.ValidPagesAdjacent | routers/games.py:73 | For valid inputs the offset is ≥ 0 and page p+1 starts where page p ends. |
| Paging.EveryRowOnOnePage | routers/games.py:73 | Row i lies on page p exactly when p = i / pageSize + 1, so pages are disjoint and cover all rows. |
| Paging.BuildListing | routers/games.py:71-76 | The page check comes before the sort. A listing has limit pageSize ≥ 1, offset (page-1)·pageSize ≥ 0, and the sorted query with LIMIT/OFFSET. |
| Games.Mapper | routers/games.py:35-50 | Only the keys of each category's map are accepted. Each gives one or two sort keys. |
| Games.SimpleSort | routers/games.py:25-59 | Unknown categories and sort names raise. Otherwise the query is kept as a prefix of the sorted query. |
| Games.ScoreOrders | routers/games.py:41-47 | best = score desc then duration asc, and worst reverses both. default = best; recent and stale order by id. |
| Games.SingleKeySort | routers/games.py:51-58 | A one-key entry gives a single `ORDER BY alias.field order` term. |
| Games.TwoKeySort | routers/games.py:55-58 | A two-key entry gives both terms in order, comma separated. |
| Games.UnknownSortRaises | routers/games.py:50-55 | A sort name outside the category's keys, or any unknown category, raises instead of using `"default"`. |
| Games.GameListing | routers/games.py:70-136 | A listing exists exactly for a valid page and a known sort. A bad page gives its 400, checked before the sort. An unknown sort raises. The listing's limit is pageSize, its offset (page-1)·pageSize, and its query the sorted base query with the LIMIT/OFFSET suffix. |
| Games.GameListingNextPage | routers/games.py:70-136 | The next page of a listing runs the same query text, one window of pageSize further on. |
| Games.FindGame | routers/games.py:147-151 | The first `game_list` row with that name, or None when there is none. |
| Games.InsertMyGameScore | routers/games.py:139-183 | An empty body writes nothing. An unknown game returns ERROR "Game: {game} not found" with no insert and no publish. Otherwise one row with the caller's ids, score and duration is inserted. Two `high-score-processor` messages follow in order: around-the-world, then challenge-check carrying the record id. Missing fields or user raise, and so does an exception escaping the insert: a 500 with no row and no publish. A post with a body, a known game, a matched user, a score and a duration whose insert does not raise always records, with a record id exactly when the insert gives one. |
| Games.MyScores | routers/games.py:121-135 | The caller's listing for a game selects exactly that caller's rows for that game. |
| Games.RecordedScoreIsListed | routers/games.py:139-183 | A recorded score is the single new row in the caller's listing for that game. No other listing changes. |
| Alcohol.SortKeyFor | routers/alcohol.py:33-40 | Only the five map keys are accepted, each with one reading or id key. |
| Alcohol.SimpleSort | routers/alcohol.py:23-41 | An unknown sort name raises. Otherwise the query is kept as a prefix of the sorted query. |
| Alcohol.SimpleSortKnownKey | routers/alcohol.py:23-41 | A known sort name renders `{query} order by {alias}.{field} {order}` with the mapped field and order. |
| Alcohol.SortOrders | routers/alcohol.py:33-39 | best→reading desc, worst→reading asc, recent and default→id desc, stale→id asc. |
| Alcohol.Selected | routers/alcohol.py:56-60 | A listing selects exactly the joined readings allowed by its owner restriction. |
| Alcohol.ListReadings | routers/alcohol.py:52-84 | A listing exists for a valid page and known sort. It has limit pageSize and offset (page-1)·pageSize, with no owner restriction. |
| Alcohol.MyReadings | routers/alcohol.py:87-101 | The page is checked first, then the caller must exist. The query has no owner restriction. |
| Alcohol.MyReadingsIsList | routers/alcohol.py:87-101 | The caller's own listing is the public listing. |
| Alcohol.MyReadingsShowsOthers | routers/alcohol.py:90-97 | A caller sees another user's reading in the "my readings" listing. |
| Alcohol.MyReadingsFiltered | routers/alcohol.py:87-101 | The corrected listing is restricted to the caller's uuid and succeeds exactly when the public listing does. |
| Alcohol.MyReadingsFilteredOnlyOwn | routers/alcohol.py:87-101 | The corrected listing selects exactly the caller's joined readings. |
| Alcohol.InsertAlcoholReading | routers/alcohol.py:104-116 | An empty body writes nothing. Otherwise exactly one row (caller uuid, reading) is inserted and its id returned. A missing reading or user raises, and so does an exception escaping the insert, with no row. |
| Alcohol.InsertedReadingIsOwn | routers/alcohol.py:104-116 | A recorded reading appears in the caller's corrected listing. |
| BadgeRegistration.ConfigBadgeRegister | routers/badge_registration.py:16-34 | An empty body returns SUCCESS "No body passed. Nothing written". A falsy MAC gives 400 "mac_address is missing" before the chip id is checked. A falsy chip id gives 400 "chip_id is missing". Otherwise one row is inserted and its id returned. An exception escaping the insert is a 500 with no row. |
| BadgeRegistration.RegisterKeepsWellFormed | routers/badge_registration.py:23-29 | No stored registration ever has an empty MAC address or chip id, and ids stay fresh. |

## Left out

- Network, Redis, PostgreSQL, MySQL, pandas and psycopg are not modelled as software:
  - tables are sequences of rows;
  - a SQL `WHERE` is a filter;
  - a database failure is a flag or a set of failing calls.
  - The whitespace of the endpoints' SQL text is not reproduced.
- SHA-256 is a parameter. Its outputs are assumed to be 64 lowercase hex characters.
- `time.time()` is a whole number of seconds. Its fractional `str()` rendering is not modelled.
- `time.sleep(1)` advances the clock by one.
- Badge.Probe: the collision loop is unbounded in the source. It is driven by fuel, and running out of fuel is an error the source cannot produce.
- `random.randint` is a natural-number draw folded into 1..n.
- The fact web service is an oracle: unreachable, not JSON, or JSON with or without `text`.
- PgSql.ExecuteLoop: `release_resources` is modelled on its own (`PgSql.Release`, `PgSql.ReleaseTwice`) and is not threaded through the loops. Neither `PgSql.ExecuteLoop` nor `PgSql.SelectLoop` states which connections are back in the pool after a call, including the second `putconn` after a failed checkout.
- MySql.ExecuteLoop: the loop that may never end is bounded by fuel. Its result says when the fuel ran out.
- `mysql.connect` and the MySQL pool settings: configuration with nothing to state.
- Base64.Decode, Base64.ForeignCharacterRejected: strict. Python's default decoder (`validate=False`) discards characters outside the alphabet instead of rejecting them, so `"QQ=!="` decodes to `b"A"` there and is rejected here. Python also skips a `=` that follows a complete group (`"QUJD="` gives `b"ABC"`) and ignores data after the first completed pad (`"QQ==QQ=="` gives `b"A"`); the model rejects both. So `CaptureTheFlag.CaptureTheFlag` answers that a code is not decodable in these cases, where the source would redirect.
- Text.Lower: only ASCII letters are lowered.
- Readings, scores and durations are integers, although JSON may carry floats.
- Malformed JSON bodies and the `request.body()` / `request.json()` machinery are left out. A body is present or absent, and a missing field is None.
- Concurrency is left out: the check-then-insert race on unlocks and races on the store between requests. Uniqueness is proved for sequential requests only.
- Logging and metrics, telemetry and S3 log shipping, application wiring and configuration.
- The exception middleware beyond mapping an `HTTPException` to its status.
- The `push-redis` / `pull-redis` test endpoints and the unused `replace_string_in_text` helper.
- The test-only routes.
- `routers/secret_flag.py`: a one-line binding of the CTF action, covered by `CaptureTheFlag.CtfEndpoint`'s pattern.
- Redis never fails in the model. `get`, `set` and `publish` always succeed. In the source a failing call surfaces: ERROR "Some unknown…" in `ctf_action`, a 500 from `set_registration_keys`, `verify_badge` and the game-score publishes, and a swallowed or 500 outcome in `capturetheflag.py`.
- BadgeQueue.NextEvent: the mark-read UPDATE never fails in the model. In the source it goes through `pgsql.execute`, which swallows exhaustion, so the event is returned while its row stays unread and is delivered again.
- BadgeQueue.Drain: "every pending event exactly once" holds for a fault-free queue only, for the reason given for NextEvent.
- An insert that gives no id (`PgSql.NoRowId` in `Games.InsertMyGameScore`, `Alcohol.InsertAlcoholReading` and `BadgeRegistration.ConfigBadgeRegister`) writes no row. The connector can commit an insert and still report failure (`PgSql.InsertCommittedRepeatedly`). Rows that were written but not reported are not represented at the router level.
- A failing game lookup in `insert_my_game_score` (None from the connector, then a TypeError) is not modelled. The game table is read without faults.
- Ordering and paging of rows inside a listing query are left out. The model states which rows a query selects and the limit and offset it passes.
- The inner JOIN with `users` is a membership filter (`Alcohol.Selected`, `Games.MyScores`). When several user rows share a uuid, which `Users.FirstMatch` allows, the JOIN repeats a row once per user row; the model lists it once.

## Findings

| source | as written | input that shows it | evidently intended | confidence | as-written member | corrected member |
|---|---|---|---|---|---|---|
| routers/alcohol.py:90-97 | `GET /alcohol/me` binds the caller's uuid as a query parameter, but the query has no `WHERE` on it, so it returns every user's readings. | Users A and B each with one reading; A calls `/alcohol/me` and receives B's reading. | Restrict to `ar.user_uuid = %(uuid)s`, as `GET /games/me` does. | medium, not executed | Alcohol.MyReadings (Alcohol.MyReadingsShowsOthers) | Alcohol.MyReadingsFiltered (Alcohol.MyReadingsFilteredOnlyOwn) |

=== FILE: achievements.dfy ===
/** `utilities/achievements.py`: the fixed catalogue, the staff table, the
    lookup of one achievement for one user, and the insert of an unlock. */
module Achievements {
  import opened Wrappers
  import PgSql

  datatype Achievement = Achievement(id: int, name: string, points: nat, description: string)

  /** What the catalogue lookup returns: the achievement and a 0/1 flag. */
  datatype UserAchievementView = UserAchievementView(
    id: int, name: string, points: nat, description: string, userHasAchievement: int)

  datatype StaffMember = StaffMember(id: int, discordHandle: string, discordUserId: string)

  /** The names of the `Achievements` class's properties. */
  datatype Key =
    | RickRolled | AroundTheWorld | SerialPortInteraction | SecretFlag
    | BadgeAccessPoint | BadgeWebAuth | FlagText | HelloWorld

  /** The property accessors: each returns its fixed class constant. */
  function Get(k: Key): Achievement
  {
    match k
    case RickRolled => Achievement(1, "Rick Rolled", 1, "IYKYK")
    case AroundTheWorld => Achievement(2, "Around the World", 10, "Played all of the games at least once.")
    case SerialPortInteraction => Achievement(3, "Serial Port Interaction", 5, "Interacted with the badge serial port")
    case SecretFlag => Achievement(4, "Secret Flag", 10, "Discovered the secret flag")
    case BadgeAccessPoint => Achievement(5, "Badge Access Point", 10, "Enabled the badge access point")
    case BadgeWebAuth => Achievement(6, "Badge Web Authentication", 10, "Unlocked web authentication with the badge")
    case FlagText => Achievement(7, "Flag Text", 10, "Flag Text")
    case HelloWorld => Achievement(8, "Hello World", 5, "Ahh... the classic.")
  }

  /** The catalogue in declaration order. */
  const Keys: seq<Key> := [RickRolled, AroundTheWorld, SerialPortInteraction, SecretFlag,
                           BadgeAccessPoint, BadgeWebAuth, FlagText, HelloWorld]

  function Catalogue(): (r: seq<Achievement>)
    ensures |r| == |Keys|
    ensures forall i :: 0 <= i < |r| ==> r[i] == Get(Keys[i])
  {
    seq(|Keys|, i requires 0 <= i < |Keys| => Get(Keys[i]))
  }

  /** Eight achievements whose ids are 1 to 8 in order, so pairwise distinct,
      and whose points are the catalogue's. */
  lemma CatalogueShape()
    ensures |Catalogue()| == 8
    ensures forall i :: 0 <= i < 8 ==> Catalogue()[i].id == i + 1
    ensures forall i, j :: 0 <= i < j < 8 ==> Catalogue()[i].id != Catalogue()[j].id
    ensures [Catalogue()[0].points, Catalogue()[1].points, Catalogue()[2].points, Catalogue()[3].points,
             Catalogue()[4].points, Catalogue()[5].points, Catalogue()[6].points, Catalogue()[7].points]
         == [1, 10, 5, 10, 10, 10, 10, 5]
  {
  }

  /** Every accessor is in the catalogue, and distinct accessors give
      achievements with distinct ids. */
  lemma AccessorsDistinct(k1: Key, k2: Key)
    ensures Get(k1) in Catalogue()
    ensures k1 != k2 ==> Get(k1).id != Get(k2).id
  {
    assert k1 in Keys;
    var i :| 0 <= i < |Keys| && Keys[i] == k1;
    assert Catalogue()[i] == Get(k1);
  }

  /** One row of `user_achievements`. */
  datatype UnlockRow = UnlockRow(id: nat, userId: int, achievementId: int)

  datatype UnlockTable = UnlockTable(rows: seq<UnlockRow>, nextId: nat)

  /** Some row records that `userId` unlocked `achievementId`. */
  predicate HasUnlock(rows: seq<UnlockRow>, userId: int, achievementId: int)
  {
    exists i :: 0 <= i < |rows| && rows[i].userId == userId && rows[i].achievementId == achievementId
  }

  /** Number of rows recording that pair. */
  function CountUnlocks(rows: seq<UnlockRow>, userId: int, achievementId: int): nat
    decreases |rows|
  {
    if |rows| == 0 then 0
    else CountUnlocks(rows[..|rows| - 1], userId, achievementId)
         + (if rows[|rows| - 1].userId == userId && rows[|rows| - 1].achievementId == achievementId then 1 else 0)
  }

  /** A pair is recorded iff its count is positive. */
  lemma {:induction false} HasUnlockIffCounted(rows: seq<UnlockRow>, userId: int, achievementId: int)
    ensures HasUnlock(rows, userId, achievementId) <==> CountUnlocks(rows, userId, achievementId) > 0
    decreases |rows|
  {
    if |rows| > 0 {
      var init := rows[..|rows| - 1];
      HasUnlockIffCounted(init, userId, achievementId);
      if HasUnlock(init, userId, achievementId) {
        var i :| 0 <= i < |init| && init[i].userId == userId && init[i].achievementId == achievementId;
        assert rows[i] == init[i];
      }
      if HasUnlock(rows, userId, achievementId) {
        var i :| 0 <= i < |rows| && rows[i].userId == userId && rows[i].achievementId == achievementId;
        if i < |rows| - 1 {
          assert init[i] == rows[i];
        }
      }
    }
  }

  /** `get_random_staff_member(db)`: `randint(1, n)` is the oracle `draw`
      folded into `1..n`; the chosen row is the one at that position minus
      one. None when the table is empty or the query raises. */
  function GetRandomStaffMember(staff: seq<StaffMember>, queryFails: bool, draw: nat): (r: Option<StaffMember>)
    ensures r.Some? <==> !queryFails && |staff| > 0
    ensures r.Some? ==> r.value in staff
  {
    if queryFails || |staff| == 0 then None
    else
      var roll := 1 + draw % |staff|;
      Some(staff[roll - 1])
  }

  /** Every staff row can be drawn. */
  lemma EveryStaffMemberReachable(staff: seq<StaffMember>, i: nat)
    requires i < |staff|
    ensures GetRandomStaffMember(staff, false, i) == Some(staff[i])
  {
  }

  /** The first catalogue row with id `id`. */
  function FindAchievement(table: seq<Achievement>, id: int): (r: Option<Achievement>)
    ensures r.None? <==> forall i :: 0 <= i < |table| ==> table[i].id != id
    ensures r.Some? ==> r.value in table && r.value.id == id
    decreases |table|
  {
    if |table| == 0 then None
    else if table[0].id == id then Some(table[0])
    else
      assert forall i :: 1 <= i < |table| ==> table[i] == table[1..][i - 1];
      FindAchievement(table[1..], id)
  }

  /** `get_achievement_by_ctf_id_and_user_id(db, user_id, ctf_id)`: the
      achievements row with id `ctfId`, left-joined with the user's unlocks
      into a 0/1 flag. None when no such row exists or the query raises. */
  function GetAchievementView(table: seq<Achievement>, unlocks: seq<UnlockRow>, userId: int, ctfId: int,
                              queryFails: bool): (r: Option<UserAchievementView>)
    ensures r.Some? <==> !queryFails && exists i :: 0 <= i < |table| && table[i].id == ctfId
    ensures r.Some? ==> r.value.id == ctfId
    ensures r.Some? ==> (r.value.userHasAchievement == 1 <==> HasUnlock(unlocks, userId, ctfId))
    ensures r.Some? ==> (r.value.userHasAchievement == 0 <==> !HasUnlock(unlocks, userId, ctfId))
  {
    if queryFails then None
    else match FindAchievement(table, ctfId)
      case None => None
      case Some(a) =>
        Some(UserAchievementView(a.id, a.name, a.points, a.description,
                                 if HasUnlock(unlocks, userId, ctfId) then 1 else 0))
  }

  /** `insert_user_achievement(db, user_id, achievement_id)`: appends one
      row without checking for an existing one and returns its id; None and
      no row when the insert raises. */
  function InsertUserAchievement(t: UnlockTable, userId: int, achievementId: int, insertFails: bool)
    : (r: (UnlockTable, Option<nat>))
    ensures insertFails ==> r == (t, None)
    ensures !insertFails ==>
              r.0.rows == t.rows + [UnlockRow(t.nextId, userId, achievementId)] && r.1 == Some(t.nextId)
    ensures !insertFails ==>
              CountUnlocks(r.0.rows, userId, achievementId) == CountUnlocks(t.rows, userId, achievementId) + 1
    ensures forall u, a :: (u, a) != (userId, achievementId) ==>
              CountUnlocks(r.0.rows, u, a) == CountUnlocks(t.rows, u, a)
  {
    if insertFails then (t, None)
    else
      var rows := t.rows + [UnlockRow(t.nextId, PgSql.Nullify(Some(userId)).value, PgSql.Nullify(Some(achievementId)).value)];
      assert rows[..|rows| - 1] == t.rows;
      (UnlockTable(rows, t.nextId + 1), Some(t.nextId))
  }

  /** Without the check done by its caller, two inserts give two rows for the
      same pair. */
  lemma InsertTwiceDuplicates(t: UnlockTable, userId: int, achievementId: int)
    ensures CountUnlocks(InsertUserAchievement(InsertUserAchievement(t, userId, achievementId, false).0,
                                               userId, achievementId, false).0.rows, userId, achievementId)
         == CountUnlocks(t.rows, userId, achievementId) + 2
  {
  }
}

=== FILE: alcohol.dfy ===
/** `routers/alcohol.py`: breathalyser readings. Listings take one sort key
    from a fixed map; the caller's own listing and the insert use the first
    user row the gate matched. */
module Alcohol {
  import opened Wrappers
  import Users
  import Paging
  import Http
  import PgSql

  /** The `mapper` of `simple_sort`. A name that is not a key gives None:
      the lookup then yields the string `"default"` itself, and indexing it
      raises. */
  function SortKeyFor(sortBy: string): (r: Option<Paging.SortKey>)
    ensures r.Some? <==> sortBy in ["best", "worst", "recent", "stale", "default"]
    ensures r.Some? ==> r.value.field in ["reading", "id"] && r.value.order in ["asc", "desc"]
  {
    if sortBy == "best" then Some(Paging.SortKey("reading", "desc"))
    else if sortBy == "worst" then Some(Paging.SortKey("reading", "asc"))
    else if sortBy == "recent" then Some(Paging.SortKey("id", "desc"))
    else if sortBy == "stale" then Some(Paging.SortKey("id", "asc"))
    else if sortBy == "default" then Some(Paging.SortKey("id", "desc"))
    else None
  }

  /** `simple_sort(query, sort_by, alias)`; None where it raises. */
  function SimpleSort(query: string, sortBy: string, alias: string): (r: Option<string>)
    ensures r.Some? <==> SortKeyFor(sortBy).Some?
    ensures r.Some? ==> |r.value| > |query| && r.value[..|query|] == query
  {
    match SortKeyFor(sortBy)
    case None => None
    case Some(k) => Some(query + " order by " + (alias + "." + k.field + " " + k.order))
  }

  /** A known key renders one `alias.field order` term after the query. */
  lemma SimpleSortKnownKey(q: string, sortBy: string, alias: string, k: Paging.SortKey)
    requires SortKeyFor(sortBy) == Some(k)
    ensures SimpleSort(q, sortBy, alias) == Some(q + " order by " + (alias + "." + k.field + " " + k.order))
  {
  }

  /** Best is the highest reading, worst the lowest; `default` is the
      newest row, as `recent` is, and not the best reading. */
  lemma SortOrders()
    ensures SortKeyFor("best") == Some(Paging.SortKey("reading", "desc"))
    ensures SortKeyFor("worst") == Some(Paging.SortKey("reading", "asc"))
    ensures SortKeyFor("default") == SortKeyFor("recent") == Some(Paging.SortKey("id", "desc"))
    ensures SortKeyFor("stale") == Some(Paging.SortKey("id", "asc"))
  {
  }

  /** A row of `alcohol_reading`. */
  datatype Reading = Reading(id: nat, userUuid: string, reading: int)

  datatype ReadingsDb = ReadingsDb(rows: seq<Reading>, nextId: nat)

  /** A listing query: its text and paging, and the owner its WHERE clause
      restricts to (None: no restriction). */
  datatype ReadingQuery = ReadingQuery(listing: Paging.Listing, owner: Option<string>)

  predicate Selects(owner: Option<string>, users: seq<Users.User>, x: Reading)
  {
    Users.Joined(users, x.userUuid) && (owner.None? || x.userUuid == owner.value)
  }

  /** The rows a query selects, in table order, before sorting and paging. */
  function Selected(rows: seq<Reading>, users: seq<Users.User>, owner: Option<string>): (r: seq<Reading>)
    ensures forall x :: x in r <==> x in rows && Selects(owner, users, x)
    ensures |r| <= |rows|
    decreases |rows|
  {
    if |rows| == 0 then []
    else
      var init := Selected(rows[..|rows| - 1], users, owner);
      var last := rows[|rows| - 1];
      assert rows == rows[..|rows| - 1] + [last];
      if Selects(owner, users, last) then init + [last] else init
  }

  /** The base query shared by the listing endpoints (whitespace aside). */
  const ListQuery := "SELECT coalesce(usrs.discord_handle, NULL) as discord_handle, ar.reading FROM alcohol_reading ar join users usrs on usrs.uuid = ar.user_uuid"

  /** `GET /alcohol/list` and `GET /alcohol/leaderboard`: page check, sort,
      paging, no owner. */
  function ListReadings(page: int, pageSize: int, sortBy: string): (r: Result<ReadingQuery, Paging.ListingError>)
    ensures r.Ok? <==> Paging.CheckPage(page, pageSize).None? && SortKeyFor(sortBy).Some?
    ensures r.Ok? ==> r.value.owner.None? && r.value.listing.offset == (page - 1) * pageSize
                      && r.value.listing.limit == pageSize
  {
    match Paging.BuildListing(page, pageSize, SimpleSort(ListQuery, sortBy, "ar"))
    case Err(e) => Err(e)
    case Ok(l) => Ok(ReadingQuery(l, None))
  }

  datatype MeError = BadListing(error: Paging.ListingError) | NoUser

  /** `GET /alcohol/me` as written: the page is checked, then the caller's
      uuid is read (an empty match raises), then the query is built; the
      uuid goes into the parameters, but the query never refers to it. */
  function MyReadings(requestUser: seq<Users.User>, page: int, pageSize: int, sortBy: string)
    : (r: Result<ReadingQuery, MeError>)
    ensures Paging.CheckPage(page, pageSize).Some? ==> r.Err? && r.error.BadListing?
    ensures Paging.CheckPage(page, pageSize).None? && |requestUser| == 0 ==> r == Err(NoUser)
    ensures r.Ok? ==> |requestUser| > 0 && r.value.owner.None?
  {
    if Paging.CheckPage(page, pageSize).Some? then Err(BadListing(Paging.BadPage(Paging.CheckPage(page, pageSize).value)))
    else if |requestUser| == 0 then Err(NoUser)
    else match ListReadings(page, pageSize, sortBy)
      case Err(e) => Err(BadListing(e))
      case Ok(q) => Ok(q)
  }

  /** The caller's own listing is the public listing. */
  lemma MyReadingsIsList(requestUser: seq<Users.User>, page: int, pageSize: int, sortBy: string)
    requires |requestUser| > 0
    ensures MyReadings(requestUser, page, pageSize, sortBy).Ok? <==> ListReadings(page, pageSize, sortBy).Ok?
    ensures MyReadings(requestUser, page, pageSize, sortBy).Ok? ==>
              MyReadings(requestUser, page, pageSize, sortBy).value == ListReadings(page, pageSize, sortBy).value
  {
  }

  /** So a caller sees another user's reading in "their" listing. */
  lemma MyReadingsShowsOthers()
    ensures var me := Users.User(1, "A", "A", "a", "1", "uuid-a", "mac-a");
            var other := Users.User(2, "B", "B", "b", "2", "uuid-b", "mac-b");
            var rows := [Reading(1, "uuid-a", 10), Reading(2, "uuid-b", 90)];
            var q := MyReadings([me], 1, 10, "best");
            q.Ok? && Reading(2, "uuid-b", 90) in Selected(rows, [me, other], q.value.owner)
              && Reading(2, "uuid-b", 90).userUuid != me.uuid
  {
    var me := Users.User(1, "A", "A", "a", "1", "uuid-a", "mac-a");
    var other := Users.User(2, "B", "B", "b", "2", "uuid-b", "mac-b");
    assert [me, other][1].uuid == "uuid-b";
    assert Users.Joined([me, other], "uuid-b");
  }

  /** `GET /alcohol/me` with the evident intent: the query restricted to the
      caller's uuid. */
  function MyReadingsFiltered(requestUser: seq<Users.User>, page: int, pageSize: int, sortBy: string)
    : (r: Result<ReadingQuery, MeError>)
    ensures Paging.CheckPage(page, pageSize).Some? ==> r.Err? && r.error.BadListing?
    ensures Paging.CheckPage(page, pageSize).None? && |requestUser| == 0 ==> r == Err(NoUser)
    ensures r.Ok? ==> |requestUser| > 0 && r.value.owner == Some(requestUser[0].uuid)
    ensures r.Ok? <==> |requestUser| > 0 && ListReadings(page, pageSize, sortBy).Ok?
  {
    match MyReadings(requestUser, page, pageSize, sortBy)
    case Err(e) => Err(e)
    case Ok(q) => Ok(q.(owner := Some(requestUser[0].uuid)))
  }

  /** The corrected listing selects exactly the caller's joined readings. */
  lemma MyReadingsFilteredOnlyOwn(requestUser: seq<Users.User>, page: int, pageSize: int, sortBy: string,
                                  rows: seq<Reading>, users: seq<Users.User>)
    requires MyReadingsFiltered(requestUser, page, pageSize, sortBy).Ok?
    ensures var sel := Selected(rows, users, MyReadingsFiltered(requestUser, page, pageSize, sortBy).value.owner);
            (forall x :: x in sel ==> x.userUuid == requestUser[0].uuid)
            && (forall x :: x in rows && x.userUuid == requestUser[0].uuid && Users.Joined(users, x.userUuid) ==> x in sel)
  {
  }

  /** The JSON body of `POST /alcohol/me`; a missing `reading` is None. */
  datatype ReadingBody = ReadingBody(reading: Option<int>)

  datatype InsertReply = Recorded(recordId: Option<int>) | NothingWritten(message: string)

  /** `POST /alcohol/me`: one insert of the caller's uuid and the reading;
      `insert` is how the INSERT ends. */
  function InsertAlcoholReading(db: ReadingsDb, requestUser: seq<Users.User>, body: Option<ReadingBody>, insert: PgSql.InsertOutcome)
    : (r: Result<(ReadingsDb, InsertReply), Http.Failure>)
    ensures body.None? ==> r == Ok((db, NothingWritten(Http.NoBodyMessage)))
    ensures r.Err? <==> body.Some? && (|requestUser| == 0 || body.value.reading.None? || insert.InsertRaises?)
    ensures r.Err? ==> r.error == Http.Crashed
    ensures r.Ok? && body.Some? ==> r.value.1.Recorded? && (r.value.1.recordId.None? <==> insert.NoRowId?)
    ensures r.Ok? && r.value.1.Recorded? && r.value.1.recordId.Some? ==>
              |requestUser| > 0 && body.Some? && body.value.reading.Some?
              && r.value.0 == ReadingsDb(db.rows + [Reading(db.nextId, requestUser[0].uuid, body.value.reading.value)],
                                         db.nextId + 1)
              && r.value.1.recordId.value == db.nextId
    ensures r.Ok? && !(r.value.1.Recorded? && r.value.1.recordId.Some?) ==> r.value.0 == db
  {
    if body.None? then Ok((db, NothingWritten(Http.NoBodyMessage)))
    else if |requestUser| == 0 || body.value.reading.None? || insert.InsertRaises? then Err(Http.Crashed)
    else if insert.NoRowId? then Ok((db, Recorded(None)))
    else
      var row := Reading(db.nextId, requestUser[0].uuid, body.value.reading.value);
      Ok((ReadingsDb(db.rows + [row], db.nextId + 1), Recorded(Some(db.nextId))))
  }

  /** A recorded reading shows up in the caller's corrected listing. */
  lemma InsertedReadingIsOwn(db: ReadingsDb, requestUser: seq<Users.User>, users: seq<Users.User>, reading: int,
                             page: int, pageSize: int, sortBy: string)
    requires |requestUser| > 0 && requestUser[0] in users
    requires MyReadingsFiltered(requestUser, page, pageSize, sortBy).Ok?
    ensures var after := InsertAlcoholReading(db, requestUser, Some(ReadingBody(Some(reading))), PgSql.RowWritten).value.0;
            var q := MyReadingsFiltered(requestUser, page, pageSize, sortBy).value;
            Reading(db.nextId, requestUser[0].uuid, reading) in Selected(after.rows, users, q.owner)
  {
  }
}

=== FILE: backend.dfy ===
/** The state the request handlers share: the PostgreSQL tables the
    achievement pipeline touches, the Redis store, the clock and the log of
    everything published. */
module Backend {
  import Users
  import Events
  import Achievements
  import Cache
  import PubSub

  datatype Db = Db(
    users: seq<Users.User>,
    events: Events.EventLog,
    achievements: seq<Achievements.Achievement>,
    unlocks: Achievements.UnlockTable,
    staff: seq<Achievements.StaffMember>)

  datatype World = World(db: Db, cache: Cache.Store, clock: nat, published: seq<PubSub.Message>)

  /** The database calls of the pipeline; a call in the fault set of a
      request raises inside the helper that makes it. */
  datatype DbCall = LogEventCall | UserLookup | AchievementLookup | UnlockInsert | StaffLookup

  /** No (user, achievement) pair is recorded twice. */
  ghost predicate UnlocksUnique(db: Db)
  {
    forall u, a :: Achievements.CountUnlocks(db.unlocks.rows, u, a) <= 1
  }
}

=== FILE: badge.dfy ===
/** The pairing-code engine of `routers/badge.py`. An unregistered badge is
    given an 8-character code, stored in Redis in both directions for 15
    minutes: `code -> "uuid|mac"` and `"uuid|mac" -> code`. A candidate
    code already held by another badge is regenerated a second later.
    SHA-256 is the parameter `sha` (its hex digest as a string); the clock
    is whole seconds. */
module Badge {
  import opened Wrappers
  import Text
  import Cache
  import PubSub
  import Users
  import opened Backend

  /** `ex=60 * 15`. */
  const RegistrationTtl: nat := 60 * 15

  type Sha = string -> string

  /** What `hashlib.sha256(...).hexdigest()` always returns: 64 characters
      of `0-9a-f`. */
  ghost predicate HexDigest(sha: Sha)
  {
    forall s :: |sha(s)| == 64 && Text.IsLowerHex(sha(s))
  }

  /** Python's `s[:n]`. */
  function Prefix(s: string, n: nat): (r: string)
    ensures |r| == (if |s| < n then |s| else n)
    ensures r <= s
  {
    if |s| < n then s else s[..n]
  }

  /** `generate_short_hash(uuid, mac)`: the first 8 characters of the digest
      of `uuid + mac + str(time)`. */
  function ShortHash(sha: Sha, uuid: string, mac: string, now: nat): (r: string)
    ensures HexDigest(sha) ==> |r| == 8 && Text.IsLowerHex(r)
    ensures r <= sha(uuid + mac + Text.NatToString(now))
  {
    Prefix(sha(uuid + mac + Text.NatToString(now)), 8)
  }

  /** The key of the reverse direction, and the value of the forward one. */
  function IdentityKey(uuid: string, mac: string): string
  {
    uuid + "|" + mac
  }

  /** The collision test: the stored value, split on `|`, names this badge.
      Python raises IndexError when there is no `|` at all. */
  predicate OwnedBy(value: string, uuid: string, mac: string)
  {
    var parts := Text.Split(value, '|');
    |parts| >= 2 && parts[0] == uuid && parts[1] == mac
  }

  /** The value written for a badge whose ids contain no `|` names exactly
      that badge. */
  lemma IdentityKeyOwnedOnlyByItself(uuid: string, mac: string, u2: string, m2: string)
    requires '|' !in uuid && '|' !in mac
    ensures Text.Split(IdentityKey(uuid, mac), '|') == [uuid, mac]
    ensures OwnedBy(IdentityKey(uuid, mac), u2, m2) <==> u2 == uuid && m2 == mac
  {
    Text.SplitPair(uuid, '|', mac);
  }

  /** A code (hex, no `|`) never equals an identity key (which has one), so
      the two directions never overwrite each other. */
  lemma CodeIsNotIdentityKey(code: string, uuid: string, mac: string)
    requires Text.IsLowerHex(code)
    ensures code != IdentityKey(uuid, mac)
  {
    var k := IdentityKey(uuid, mac);
    assert k[|uuid|] == '|';
    assert !Text.IsLowerHexChar('|');
  }

  datatype PairingError =
    | MalformedEntry             // a live candidate's value has no `|`: IndexError
    | CollisionRetriesExhausted  // the fuel bound of the unbounded loop ran out

  /** At second `t` the candidate code is live and its value names another
      badge: the loop sleeps and tries again. */
  predicate CollidesAt(c: Cache.Store, sha: Sha, uuid: string, mac: string, t: nat)
  {
    var code := ShortHash(sha, uuid, mac, t);
    Cache.Live(c, code, t) && |Text.Split(c[code].value, '|')| >= 2 && !OwnedBy(c[code].value, uuid, mac)
  }

  /** At second `t` the candidate code is live and its value has no `|`:
      `split("|")[1]` raises. */
  predicate MalformedAt(c: Cache.Store, sha: Sha, uuid: string, mac: string, t: nat)
  {
    var code := ShortHash(sha, uuid, mac, t);
    Cache.Live(c, code, t) && |Text.Split(c[code].value, '|')| < 2
  }

  /** The collision loop, starting at time `now`: a candidate is accepted
      when no live entry holds it or the entry names this badge; otherwise
      the loop sleeps one second and tries the next digest. `fuel` bounds
      the number of retries. Returns the code and the time it was accepted. */
  function Probe(c: Cache.Store, sha: Sha, uuid: string, mac: string, now: nat, fuel: nat)
    : (r: Result<(string, nat), PairingError>)
    ensures r.Ok? ==> now <= r.value.1 <= now + fuel && r.value.0 == ShortHash(sha, uuid, mac, r.value.1)
    ensures r.Ok? ==> !Cache.Live(c, r.value.0, r.value.1) || OwnedBy(c[r.value.0].value, uuid, mac)
    ensures r.Ok? ==> forall t :: now <= t < r.value.1 ==> CollidesAt(c, sha, uuid, mac, t)
    ensures r == Err(MalformedEntry) ==>
              exists t :: now <= t <= now + fuel && MalformedAt(c, sha, uuid, mac, t)
                          && forall t' :: now <= t' < t ==> CollidesAt(c, sha, uuid, mac, t')
    ensures r == Err(CollisionRetriesExhausted) <==> forall t :: now <= t <= now + fuel ==> CollidesAt(c, sha, uuid, mac, t)
    decreases fuel
  {
    var code := ShortHash(sha, uuid, mac, now);
    match Cache.Get(c, code, now)
    case None =>
      assert !CollidesAt(c, sha, uuid, mac, now);
      Ok((code, now))
    case Some(v) =>
      var parts := Text.Split(v, '|');
      if |parts| < 2 then
        assert MalformedAt(c, sha, uuid, mac, now) && !CollidesAt(c, sha, uuid, mac, now);
        Err(MalformedEntry)
      else if parts[0] == uuid && parts[1] == mac then
        assert !CollidesAt(c, sha, uuid, mac, now);
        Ok((code, now))
      else if fuel == 0 then Err(CollisionRetriesExhausted)
      else Probe(c, sha, uuid, mac, now + 1, fuel - 1)
  }

  /** A pairing written to the store, with the code and the write time. */
  datatype Pairing = Pairing(cache: Cache.Store, code: string, at: nat)

  /** Both directions are present with a 15-minute lifetime from `at`, and
      every other key is as it was. */
  ghost predicate Written(c: Cache.Store, p: Pairing, uuid: string, mac: string)
  {
    var id := IdentityKey(uuid, mac);
    && p.code in p.cache && p.cache[p.code] == Cache.Entry(id, p.at + RegistrationTtl)
    && id in p.cache && p.cache[id] == Cache.Entry(p.code, p.at + RegistrationTtl)
    && forall k :: k != p.code && k != id ==> (k in p.cache <==> k in c) && (k in c ==> p.cache[k] == c[k])
  }

  /** `set_registration_keys(uuid, mac)`. */
  function SetRegistrationKeys(c: Cache.Store, sha: Sha, uuid: string, mac: string, now: nat, fuel: nat)
    : (r: Result<Pairing, PairingError>)
    requires HexDigest(sha)
    ensures r.Ok? ==> |r.value.code| == 8 && Text.IsLowerHex(r.value.code)
    ensures r.Ok? ==> now <= r.value.at && r.value.code == ShortHash(sha, uuid, mac, r.value.at)
    ensures r.Ok? ==> Written(c, r.value, uuid, mac)
    ensures r.Ok? ==> !Cache.Live(c, r.value.code, r.value.at) || OwnedBy(c[r.value.code].value, uuid, mac)
    ensures r.Err? <==> Probe(c, sha, uuid, mac, now, fuel).Err?
  {
    match Probe(c, sha, uuid, mac, now, fuel)
    case Err(e) => Err(e)
    case Ok((code, t)) =>
      var id := IdentityKey(uuid, mac);
      CodeIsNotIdentityKey(code, uuid, mac);
      var c1 := Cache.Set(c, code, id, RegistrationTtl, t);
      Ok(Pairing(Cache.Set(c1, id, code, RegistrationTtl, t), code, t))
  }

  /** A live code held by another badge is never overwritten: if a code
      was live for someone else when it was accepted, it was not accepted. */
  lemma NeverStealsLiveCode(c: Cache.Store, sha: Sha, uuid: string, mac: string, now: nat, fuel: nat,
                            u2: string, m2: string)
    requires HexDigest(sha)
    requires '|' !in u2 && '|' !in m2 && (u2 != uuid || m2 != mac)
    requires SetRegistrationKeys(c, sha, uuid, mac, now, fuel).Ok?
    ensures var p := SetRegistrationKeys(c, sha, uuid, mac, now, fuel).value;
            !(Cache.Live(c, p.code, p.at) && c[p.code].value == IdentityKey(u2, m2))
  {
    var p := SetRegistrationKeys(c, sha, uuid, mac, now, fuel).value;
    IdentityKeyOwnedOnlyByItself(u2, m2, uuid, mac);
  }

  /** `get_registration_code(uuid, mac)`: the live reverse entry, read only. */
  function GetRegistrationCode(c: Cache.Store, uuid: string, mac: string, now: nat): (r: Option<string>)
    ensures r.Some? <==> Cache.Live(c, IdentityKey(uuid, mac), now)
    ensures r.Some? ==> r.value == c[IdentityKey(uuid, mac)].value
  {
    Cache.Get(c, IdentityKey(uuid, mac), now)
  }

  /** A fresh pairing resolves both ways until it expires: the code finds
      the badge's ids, the ids find the code. */
  lemma PairingResolvesBothWays(c: Cache.Store, sha: Sha, uuid: string, mac: string, now: nat, fuel: nat,
                                later: nat)
    requires HexDigest(sha)
    requires '|' !in uuid && '|' !in mac
    requires SetRegistrationKeys(c, sha, uuid, mac, now, fuel).Ok?
    requires var p := SetRegistrationKeys(c, sha, uuid, mac, now, fuel).value;
             p.at <= later < p.at + RegistrationTtl
    ensures var p := SetRegistrationKeys(c, sha, uuid, mac, now, fuel).value;
            GetRegistrationCode(p.cache, uuid, mac, later) == Some(p.code)
            && Cache.Get(p.cache, p.code, later).Some?
            && Text.Split(Cache.Get(p.cache, p.code, later).value, '|') == [uuid, mac]
  {
    IdentityKeyOwnedOnlyByItself(uuid, mac, uuid, mac);
  }

  /** The reply of `/badge/register` and `/badge/verify`: `registered` is
      `json.dumps` of 0 or 1. */
  datatype PairingReply = PairingReply(registered: string, code: Option<string>)

  /** The unregistered branch shared by both endpoints: the live code if it
      is non-empty, otherwise a new pairing. */
  function ObtainCode(w: World, sha: Sha, uuid: string, mac: string, fuel: nat)
    : (r: Result<(World, PairingReply), PairingError>)
    requires HexDigest(sha)
    ensures r.Ok? ==> r.value.0.db == w.db && r.value.0.published == w.published && r.value.0.clock >= w.clock
    ensures r.Ok? ==> r.value.1.registered == "0" && r.value.1.code.Some? && r.value.1.code.value != ""
    ensures r.Ok? ==> GetRegistrationCode(r.value.0.cache, uuid, mac, r.value.0.clock) == r.value.1.code
    ensures var existing := GetRegistrationCode(w.cache, uuid, mac, w.clock);
            existing.Some? && existing.value != "" ==> r == Ok((w, PairingReply("0", existing)))
  {
    var existing := GetRegistrationCode(w.cache, uuid, mac, w.clock);
    if existing.Some? && existing.value != "" then Ok((w, PairingReply("0", existing)))
    else
      match SetRegistrationKeys(w.cache, sha, uuid, mac, w.clock, fuel)
      case Err(e) => Err(e)
      case Ok(p) => Ok((w.(cache := p.cache, clock := p.at), PairingReply("0", Some(p.code))))
  }

  /** `register_badge(request)`: `requestUser` is what the authentication
      gate matched for the headers `uuid` and `mac`. */
  function Register(w: World, sha: Sha, requestUser: seq<Users.User>, uuid: string, mac: string, fuel: nat)
    : (r: Result<(World, PairingReply), PairingError>)
    requires HexDigest(sha)
    ensures |requestUser| > 0 ==> r == Ok((w, PairingReply("1", None)))
    ensures |requestUser| == 0 ==> r == ObtainCode(w, sha, uuid, mac, fuel)
    ensures r.Ok? ==> r.value.0.db == w.db && r.value.0.published == w.published
  {
    if |requestUser| > 0 then Ok((w, PairingReply("1", None)))
    else ObtainCode(w, sha, uuid, mac, fuel)
  }

  /** The JSON body a registered badge may send to `/badge/verify`. */
  datatype VerifyBody = VerifyBody(hs: Option<string>, status: Option<string>)

  /** What is forwarded: high scores take precedence over a status. */
  function Report(b: VerifyBody): (r: PubSub.BadgeReport)
    ensures r.HighScores? <==> Text.Truthy(b.hs)
    ensures r.Status? <==> !Text.Truthy(b.hs) && Text.Truthy(b.status)
    ensures r.HighScores? ==> r.scores == b.hs.value
    ensures r.Status? ==> r.status == b.status.value
  {
    if Text.Truthy(b.hs) then PubSub.HighScores(b.hs.value)
    else if Text.Truthy(b.status) then PubSub.Status(b.status.value)
    else PubSub.NoReport
  }

  /** `verify_badge(request)`: as `register_badge`, and a registered badge
      that sends a body has it forwarded on `high-score-processor`. */
  function Verify(w: World, sha: Sha, requestUser: seq<Users.User>, uuid: string, mac: string,
                  body: Option<VerifyBody>, fuel: nat): (r: Result<(World, PairingReply), PairingError>)
    requires HexDigest(sha)
    ensures |requestUser| > 0 && body.Some? ==>
              r == Ok((w.(published := w.published + [PubSub.Message(PubSub.HighScoreChannel,
                                                         PubSub.BadgeUpdate(uuid, mac, Report(body.value)))]),
                       PairingReply("1", None)))
    ensures |requestUser| > 0 && body.None? ==> r == Ok((w, PairingReply("1", None)))
  {
    if |requestUser| > 0 then
      if body.Some? then
        Ok((w.(published := PubSub.Publish(w.published, PubSub.HighScoreChannel,
                                           PubSub.BadgeUpdate(uuid, mac, Report(body.value)))),
            PairingReply("1", None)))
      else Ok((w, PairingReply("1", None)))
    else ObtainCode(w, sha, uuid, mac, fuel)
  }

  /** The two endpoints pair alike: same reply and same store, and they
      differ only by the one message a registered badge's body produces. */
  lemma RegisterAndVerifyAgree(w: World, sha: Sha, requestUser: seq<Users.User>, uuid: string, mac: string,
                               body: Option<VerifyBody>, fuel: nat)
    requires HexDigest(sha)
    ensures var reg := Register(w, sha, requestUser, uuid, mac, fuel);
            var ver := Verify(w, sha, requestUser, uuid, mac, body, fuel);
            reg.Ok? == ver.Ok?
            && (reg.Ok? ==> reg.value.1 == ver.value.1 && reg.value.0.cache == ver.value.0.cache
                            && reg.value.0.clock == ver.value.0.clock)
            && (reg.Ok? && (|requestUser| == 0 || body.None?) ==> reg == ver)
  {
  }

  /** Registering again straight away returns the same code and writes
      nothing. */
  lemma RegisterTwiceSameCode(w: World, sha: Sha, uuid: string, mac: string, fuel: nat, fuel2: nat)
    requires HexDigest(sha)
    requires Register(w, sha, [], uuid, mac, fuel).Ok?
    ensures var (w1, reply) := Register(w, sha, [], uuid, mac, fuel).value;
            Register(w1, sha, [], uuid, mac, fuel2) == Ok((w1, reply))
  {
  }

  /** Two badges paired one after the other, while the first pairing is
      live, get different codes, and both codes still resolve to their own
      badge. */
  lemma TwoBadgesDistinctCodes(c: Cache.Store, sha: Sha, ua: string, ma: string, ub: string, mb: string,
                               now: nat, fuel: nat, later: nat, fuel2: nat)
    requires HexDigest(sha)
    requires '|' !in ua && '|' !in ma && '|' !in ub && '|' !in mb && (ua != ub || ma != mb)
    requires SetRegistrationKeys(c, sha, ua, ma, now, fuel).Ok?
    requires var pa := SetRegistrationKeys(c, sha, ua, ma, now, fuel).value;
             pa.at <= later && SetRegistrationKeys(pa.cache, sha, ub, mb, later, fuel2).Ok?
             && SetRegistrationKeys(pa.cache, sha, ub, mb, later, fuel2).value.at < pa.at + RegistrationTtl
    ensures var pa := SetRegistrationKeys(c, sha, ua, ma, now, fuel).value;
            var pb := SetRegistrationKeys(pa.cache, sha, ub, mb, later, fuel2).value;
            pa.code != pb.code
            && pb.cache[pa.code].value == IdentityKey(ua, ma)
            && pb.cache[pb.code].value == IdentityKey(ub, mb)
  {
    var pa := SetRegistrationKeys(c, sha, ua, ma, now, fuel).value;
    var pb := SetRegistrationKeys(pa.cache, sha, ub, mb, later, fuel2).value;
    IdentityKeyOwnedOnlyByItself(ua, ma, ub, mb);
    IdentityKeyOwnedOnlyByItself(ub, mb, ua, ma);
    if pa.code == pb.code {
      assert Cache.Live(pa.cache, pa.code, pb.at);
      assert false;
    }
    assert IdentityKey(ub, mb) != IdentityKey(ua, ma);
    CodeIsNotIdentityKey(pa.code, ub, mb);
  }

  /** Pairing never touches the record of the fact rate limiter. */
  lemma PairingKeepsFactRecord(c: Cache.Store, sha: Sha, uuid: string, mac: string, now: nat, fuel: nat)
    requires HexDigest(sha)
    requires SetRegistrationKeys(c, sha, uuid, mac, now, fuel).Ok?
    ensures var p := SetRegistrationKeys(c, sha, uuid, mac, now, fuel).value;
            ("last_sent_fact" in p.cache <==> "last_sent_fact" in c)
            && ("last_sent_fact" in c ==> p.cache["last_sent_fact"] == c["last_sent_fact"])
  {
    var p := SetRegistrationKeys(c, sha, uuid, mac, now, fuel).value;
    assert "last_sent_fact" != p.code;
    assert forall i :: 0 <= i < 14 ==> "last_sent_fact"[i] != '|';
    assert '|' in IdentityKey(uuid, mac) by {
      assert IdentityKey(uuid, mac)[|uuid|] == '|';
    }
  }
}

=== FILE: badge_queue.dfy ===
/** The per-badge event queue of `routers/badge.py`: a badge polls for its
    lowest-id unread event, which is then marked read; an admin endpoint
    marks every event unread again. */
module BadgeQueue {
  import opened Wrappers
  import Users

  /** One row of `badge_event_queue`. */
  datatype QueueRow = QueueRow(
    id: int, recipientUuid: string, recipientMac: string,
    badgeAction: string, eventMessage: string, hasRead: int)

  /** The three columns the poll returns. */
  datatype QueueEvent = QueueEvent(id: int, badgeAction: string, eventMessage: string)

  /** The WHERE clause of the poll. */
  predicate Pending(row: QueueRow, uuid: string, mac: string)
  {
    row.recipientUuid == uuid && row.recipientMac == mac && row.hasRead == 0
  }

  /** Ids of the rows still waiting for the badge. */
  function PendingIds(rows: seq<QueueRow>, uuid: string, mac: string): set<int>
  {
    set i | 0 <= i < |rows| && Pending(rows[i], uuid, mac) :: rows[i].id
  }

  /** `ORDER BY ID ASC LIMIT 1` over the pending rows. */
  function FirstPending(rows: seq<QueueRow>, uuid: string, mac: string): (r: Option<QueueRow>)
    ensures r.None? <==> PendingIds(rows, uuid, mac) == {}
    ensures r.Some? ==> r.value in rows && Pending(r.value, uuid, mac)
    ensures r.Some? ==> forall id :: id in PendingIds(rows, uuid, mac) ==> r.value.id <= id
    decreases |rows|
  {
    if |rows| == 0 then None
    else
      var rest := FirstPending(rows[1..], uuid, mac);
      assert PendingIds(rows, uuid, mac)
          == (if Pending(rows[0], uuid, mac) then {rows[0].id} else {}) + PendingIds(rows[1..], uuid, mac) by {
        forall id | id in PendingIds(rows, uuid, mac)
          ensures id in (if Pending(rows[0], uuid, mac) then {rows[0].id} else {}) + PendingIds(rows[1..], uuid, mac)
        {
          var i :| 0 <= i < |rows| && Pending(rows[i], uuid, mac) && rows[i].id == id;
          if i > 0 {
            assert rows[1..][i - 1] == rows[i];
          }
        }
        forall id | id in PendingIds(rows[1..], uuid, mac)
          ensures id in PendingIds(rows, uuid, mac)
        {
          var i :| 0 <= i < |rows[1..]| && Pending(rows[1..][i], uuid, mac) && rows[1..][i].id == id;
          assert rows[i + 1] == rows[1..][i];
        }
      }
      if !Pending(rows[0], uuid, mac) then rest
      else if rest.Some? && rest.value.id < rows[0].id then rest
      else Some(rows[0])
  }

  /** `UPDATE badge_event_queue set has_read = 1 where id = ...`. */
  function MarkRead(rows: seq<QueueRow>, id: int): (r: seq<QueueRow>)
    ensures |r| == |rows|
    ensures forall i :: 0 <= i < |rows| ==> r[i] == (if rows[i].id == id then rows[i].(hasRead := 1) else rows[i])
  {
    seq(|rows|, i requires 0 <= i < |rows| => if rows[i].id == id then rows[i].(hasRead := 1) else rows[i])
  }

  /** Marking an id read removes exactly that id from every badge's pending
      set. */
  lemma MarkReadRemoves(rows: seq<QueueRow>, id: int, uuid: string, mac: string)
    ensures PendingIds(MarkRead(rows, id), uuid, mac) == PendingIds(rows, uuid, mac) - {id}
  {
    var after := MarkRead(rows, id);
    forall x | x in PendingIds(rows, uuid, mac) - {id}
      ensures x in PendingIds(after, uuid, mac)
    {
      var i :| 0 <= i < |rows| && Pending(rows[i], uuid, mac) && rows[i].id == x;
      assert after[i] == rows[i];
    }
  }

  /** `get_event_from_badge_event_queue`: the lowest-id unread event of the
      badge, which is marked read; nothing changes when none is left (the
      endpoint then returns `[]`). */
  function NextEvent(rows: seq<QueueRow>, uuid: string, mac: string): (r: (seq<QueueRow>, Option<QueueEvent>))
    ensures r.1.None? <==> PendingIds(rows, uuid, mac) == {}
    ensures r.1.None? ==> r.0 == rows
    ensures r.1.Some? ==> r.1.value.id in PendingIds(rows, uuid, mac)
                          && (forall id :: id in PendingIds(rows, uuid, mac) ==> r.1.value.id <= id)
                          && PendingIds(r.0, uuid, mac) == PendingIds(rows, uuid, mac) - {r.1.value.id}
    ensures |r.0| == |rows|
  {
    match FirstPending(rows, uuid, mac)
    case None => (rows, None)
    case Some(row) =>
      MarkReadRemoves(rows, row.id, uuid, mac);
      (MarkRead(rows, row.id), Some(QueueEvent(row.id, row.badgeAction, row.eventMessage)))
  }

  /** `r` lists the set `s` in strictly increasing order. */
  predicate Enumerates(r: seq<int>, s: set<int>)
  {
    (forall i, j :: 0 <= i < j < |r| ==> r[i] < r[j])
    && (forall i :: 0 <= i < |r| ==> r[i] in s)
    && (forall id :: id in s ==> id in r)
  }

  /** Putting the least element of a set in front of a listing of the rest
      lists the whole set. */
  lemma EnumeratesCons(id: int, rest: seq<int>, s: set<int>)
    requires id in s && forall x :: x in s ==> id <= x
    requires Enumerates(rest, s - {id})
    ensures Enumerates([id] + rest, s)
  {
  }

  /** The ids a badge receives by polling until the queue answers `[]`:
      every pending id exactly once, lowest first. */
  function Drain(rows: seq<QueueRow>, uuid: string, mac: string): (r: seq<int>)
    ensures Enumerates(r, PendingIds(rows, uuid, mac))
    decreases |PendingIds(rows, uuid, mac)|
  {
    var (after, e) := NextEvent(rows, uuid, mac);
    if e.None? then []
    else
      assert PendingIds(after, uuid, mac) < PendingIds(rows, uuid, mac);
      var rest := Drain(after, uuid, mac);
      EnumeratesCons(e.value.id, rest, PendingIds(rows, uuid, mac));
      [e.value.id] + rest
  }

  /** `admin_reset_badge_queue_events`: every row becomes unread. */
  function Reset(rows: seq<QueueRow>): (r: seq<QueueRow>)
    ensures |r| == |rows|
    ensures forall i :: 0 <= i < |rows| ==> r[i] == rows[i].(hasRead := 0)
  {
    seq(|rows|, i requires 0 <= i < |rows| => rows[i].(hasRead := 0))
  }

  /** After a reset every event addressed to the badge is pending again, so
      polling yields all of them once more. */
  lemma ResetMakesAllPending(rows: seq<QueueRow>, uuid: string, mac: string)
    ensures PendingIds(Reset(rows), uuid, mac)
         == set i | 0 <= i < |rows| && rows[i].recipientUuid == uuid && rows[i].recipientMac == mac :: rows[i].id
  {
    var after := Reset(rows);
    forall x | x in PendingIds(after, uuid, mac)
      ensures exists i :: 0 <= i < |rows| && rows[i].recipientUuid == uuid && rows[i].recipientMac == mac
                          && rows[i].id == x
    {
      var i :| 0 <= i < |after| && Pending(after[i], uuid, mac) && after[i].id == x;
      assert rows[i].id == x;
    }
  }

  /** The endpoint reads the badge's ids from the first row the
      authentication gate matched; None where `request.user[0]` raises.
      The dispatch is all this function does; what the poll does is stated
      by `NextEvent`. */
  function PollEndpoint(rows: seq<QueueRow>, requestUser: seq<Users.User>)
    : (r: Option<(seq<QueueRow>, Option<QueueEvent>)>)
    ensures r.Some? <==> |requestUser| > 0
    ensures r.Some? ==> r.value == NextEvent(rows, requestUser[0].uuid, requestUser[0].macAddress)
  {
    if |requestUser| == 0 then None else Some(NextEvent(rows, requestUser[0].uuid, requestUser[0].macAddress))
  }
}

=== FILE: badge_registration.dfy ===
/** `routers/badge_registration.py`: a badge announces its MAC address and
    chip id once, and the pair is stored. */
module BadgeRegistration {
  import opened Wrappers
  import Text
  import Http
  import PgSql

  /** A row of `badge_registration`. */
  datatype Registration = Registration(id: nat, macAddress: string, chipId: string)

  datatype RegistrationDb = RegistrationDb(rows: seq<Registration>, nextId: nat)

  /** The JSON body; a missing member is None. */
  datatype RegisterBody = RegisterBody(macAddress: Option<string>, chipId: Option<string>)

  datatype Reply = Recorded(recordId: Option<int>) | NothingWritten(message: string)

  const MacMissing := Http.HttpError(400, "mac_address is missing")
  const ChipMissing := Http.HttpError(400, "chip_id is missing")

  /** `POST /config/mac/register`: a missing or empty MAC address is
      rejected before the chip id is looked at; `insert` is how the INSERT
      ends. */
  function ConfigBadgeRegister(db: RegistrationDb, body: Option<RegisterBody>, insert: PgSql.InsertOutcome)
    : (r: Result<(RegistrationDb, Reply), Http.Failure>)
    ensures body.None? ==> r == Ok((db, NothingWritten(Http.NoBodyMessage)))
    ensures body.Some? && !Text.Truthy(body.value.macAddress) ==> r == Err(Http.Raised(MacMissing))
    ensures body.Some? && Text.Truthy(body.value.macAddress) && !Text.Truthy(body.value.chipId) ==>
              r == Err(Http.Raised(ChipMissing))
    ensures r.Ok? && body.Some? ==>
              Text.Truthy(body.value.macAddress) && Text.Truthy(body.value.chipId)
              && r.value.1.Recorded? && (r.value.1.recordId.None? <==> insert.NoRowId?)
    ensures body.Some? && Text.Truthy(body.value.macAddress) && Text.Truthy(body.value.chipId) ==>
              (r.Ok? <==> !insert.InsertRaises?) && (r.Err? ==> r.error == Http.Crashed)
    ensures r.Ok? && r.value.1.Recorded? && r.value.1.recordId.Some? ==>
              body.Some? && body.value.macAddress.Some? && body.value.chipId.Some?
              && r.value.0 == RegistrationDb(db.rows + [Registration(db.nextId, body.value.macAddress.value,
                                                                     body.value.chipId.value)], db.nextId + 1)
              && r.value.1.recordId.value == db.nextId
    ensures r.Ok? && !(r.value.1.Recorded? && r.value.1.recordId.Some?) ==> r.value.0 == db
  {
    if body.None? then Ok((db, NothingWritten(Http.NoBodyMessage)))
    else if !Text.Truthy(body.value.macAddress) then Err(Http.Raised(MacMissing))
    else if !Text.Truthy(body.value.chipId) then Err(Http.Raised(ChipMissing))
    else if insert.InsertRaises? then Err(Http.Crashed)
    else if insert.NoRowId? then Ok((db, Recorded(None)))
    else
      var row := Registration(db.nextId, body.value.macAddress.value, body.value.chipId.value);
      Ok((RegistrationDb(db.rows + [row], db.nextId + 1), Recorded(Some(db.nextId))))
  }

  /** A stored registration never has an empty MAC address or chip id. */
  ghost predicate WellFormed(db: RegistrationDb)
  {
    (forall i :: 0 <= i < |db.rows| ==> db.rows[i].macAddress != "" && db.rows[i].chipId != "")
    && (forall i :: 0 <= i < |db.rows| ==> db.rows[i].id < db.nextId)
  }

  /** Every request, accepted or not, keeps the table well formed, and a new
      row gets an id no earlier row has. */
  lemma RegisterKeepsWellFormed(db: RegistrationDb, body: Option<RegisterBody>, insert: PgSql.InsertOutcome)
    requires WellFormed(db)
    ensures var r := ConfigBadgeRegister(db, body, insert);
            r.Ok? ==> WellFormed(r.value.0)
  {
  }
}

=== FILE: base64.dfy ===
/** Standard Base64 with `=` padding (section 4 of RFC 4648), as Python's
    `base64.b64encode` produces it. Decoding accepts exactly the padded
    alphabet text such an encoder can produce, ignoring the unused low bits
    of a padded final group as Python does. */
module Base64 {
  import opened Wrappers
  import Utf8

  type Byte = Utf8.Byte

  /** Character for a 6-bit value: `A-Z`, `a-z`, `0-9`, `+`, `/`. */
  function CharOf(i: int): (c: char)
    requires 0 <= i < 64
  {
    if i < 26 then ('A' as int + i) as char
    else if i < 52 then ('a' as int + i - 26) as char
    else if i < 62 then ('0' as int + i - 52) as char
    else if i == 62 then '+'
    else '/'
  }

  /** The 6-bit value of an alphabet character; None for anything else,
      padding included. */
  function IndexOf(c: char): (r: Option<int>)
    ensures r.Some? ==> 0 <= r.value < 64
  {
    if 'A' <= c <= 'Z' then Some(c as int - 'A' as int)
    else if 'a' <= c <= 'z' then Some(c as int - 'a' as int + 26)
    else if '0' <= c <= '9' then Some(c as int - '0' as int + 52)
    else if c == '+' then Some(62)
    else if c == '/' then Some(63)
    else None
  }

  /** The alphabet is a bijection onto the 64 sextet values. */
  lemma IndexOfCharOf(i: int)
    requires 0 <= i < 64
    ensures IndexOf(CharOf(i)) == Some(i)
  {
  }

  predicate IsEncodedChar(c: char)
  {
    IndexOf(c).Some? || c == '='
  }

  function Quad(b0: Byte, b1: Byte, b2: Byte): (r: string)
    ensures |r| == 4
  {
    [CharOf(b0 / 4), CharOf((b0 % 4) * 16 + b1 / 16), CharOf((b1 % 16) * 4 + b2 / 64), CharOf(b2 % 64)]
  }

  /** `b64encode`: every three bytes become four characters; a final group
      of one or two bytes is padded with `=` to four characters. */
  function Encode(b: seq<Byte>): (r: string)
    ensures |r| == 4 * ((|b| + 2) / 3)
    decreases |b|
  {
    if |b| == 0 then ""
    else if |b| == 1 then [CharOf(b[0] / 4), CharOf((b[0] % 4) * 16), '=', '=']
    else if |b| == 2 then [CharOf(b[0] / 4), CharOf((b[0] % 4) * 16 + b[1] / 16), CharOf((b[1] % 16) * 4), '=']
    else Quad(b[0], b[1], b[2]) + Encode(b[3..])
  }

  /** Three bytes from four sextets. */
  function Bytes3(c0: int, c1: int, c2: int, c3: int): seq<Byte>
    requires 0 <= c0 < 64 && 0 <= c1 < 64 && 0 <= c2 < 64 && 0 <= c3 < 64
  {
    [c0 * 4 + c1 / 16, (c1 % 16) * 16 + c2 / 4, (c2 % 4) * 64 + c3]
  }

  /** A group of four characters; padding is allowed only when `last`. */
  function DecodeQuad(q: string, last: bool): Option<seq<Byte>>
    requires |q| == 4
  {
    match (IndexOf(q[0]), IndexOf(q[1]), IndexOf(q[2]), IndexOf(q[3]))
    case (Some(c0), Some(c1), Some(c2), Some(c3)) => Some(Bytes3(c0, c1, c2, c3))
    case (Some(c0), Some(c1), Some(c2), None) =>
      if last && q[3] == '=' then Some(Bytes3(c0, c1, c2, 0)[..2]) else None
    case (Some(c0), Some(c1), None, None) =>
      if last && q[2] == '=' && q[3] == '=' then Some(Bytes3(c0, c1, 0, 0)[..1]) else None
    case _ => None
  }

  /** `b64decode` on padded text, strictly: None wherever this decoder
      rejects, which is a superset of where Python raises `binascii.Error`
      (Python also skips foreign characters and stray pads, and stops at the
      first completed pad). */
  function Decode(s: string): Option<seq<Byte>>
    decreases |s|
  {
    if |s| == 0 then Some([])
    else if |s| < 4 then None
    else match DecodeQuad(s[..4], |s| == 4)
      case None => None
      case Some(head) =>
        match Decode(s[4..])
        case None => None
        case Some(tail) => Some(head + tail)
  }

  /** The output of `Encode` uses only the alphabet and `=`. */
  lemma {:induction false} EncodeAlphabet(b: seq<Byte>)
    ensures forall i :: 0 <= i < |Encode(b)| ==> IsEncodedChar(Encode(b)[i])
    decreases |b|
  {
    if |b| > 0 {
      forall i | 0 <= i < 64 {
        IndexOfCharOf(i);
      }
      if |b| >= 3 {
        EncodeAlphabet(b[3..]);
      }
    }
  }

  lemma SextetArithmetic(b0: Byte, b1: Byte, b2: Byte)
    ensures Bytes3(b0 / 4, (b0 % 4) * 16 + b1 / 16, (b1 % 16) * 4 + b2 / 64, b2 % 64) == [b0, b1, b2]
  {
    var c1 := (b0 % 4) * 16 + b1 / 16;
    var c2 := (b1 % 16) * 4 + b2 / 64;
    assert c1 / 16 == b0 % 4 && c1 % 16 == b1 / 16;
    assert c2 / 4 == b1 % 16 && c2 % 4 == b2 / 64;
  }

  lemma DecodeFullQuad(b0: Byte, b1: Byte, b2: Byte, last: bool)
    ensures DecodeQuad(Quad(b0, b1, b2), last) == Some([b0, b1, b2])
  {
    var c0, c1, c2, c3 := b0 / 4, (b0 % 4) * 16 + b1 / 16, (b1 % 16) * 4 + b2 / 64, b2 % 64;
    var q := Quad(b0, b1, b2);
    assert q == [CharOf(c0), CharOf(c1), CharOf(c2), CharOf(c3)];
    IndexOfCharOf(c0);
    IndexOfCharOf(c1);
    IndexOfCharOf(c2);
    IndexOfCharOf(c3);
    SextetArithmetic(b0, b1, b2);
  }

  lemma DecodeOnePadded(b0: Byte)
    ensures DecodeQuad([CharOf(b0 / 4), CharOf((b0 % 4) * 16), '=', '='], true) == Some([b0])
  {
    var q := [CharOf(b0 / 4), CharOf((b0 % 4) * 16), '=', '='];
    IndexOfCharOf(b0 / 4);
    IndexOfCharOf((b0 % 4) * 16);
    assert IndexOf(q[2]) == None && IndexOf(q[3]) == None;
    assert (b0 / 4) * 4 + ((b0 % 4) * 16) / 16 == b0;
    assert Bytes3(b0 / 4, (b0 % 4) * 16, 0, 0)[..1] == [b0];
  }

  lemma TwoPaddedArithmetic(b0: Byte, b1: Byte)
    ensures Bytes3(b0 / 4, (b0 % 4) * 16 + b1 / 16, (b1 % 16) * 4, 0)[..2] == [b0, b1]
  {
    var c1 := (b0 % 4) * 16 + b1 / 16;
    var c2 := (b1 % 16) * 4;
    assert c1 / 16 == b0 % 4 && c1 % 16 == b1 / 16 && c2 / 4 == b1 % 16;
  }

  lemma DecodeTwoPadded(b0: Byte, b1: Byte)
    ensures DecodeQuad([CharOf(b0 / 4), CharOf((b0 % 4) * 16 + b1 / 16), CharOf((b1 % 16) * 4), '='], true)
         == Some([b0, b1])
  {
    var c1 := (b0 % 4) * 16 + b1 / 16;
    var c2 := (b1 % 16) * 4;
    var q := [CharOf(b0 / 4), CharOf(c1), CharOf(c2), '='];
    IndexOfCharOf(b0 / 4);
    IndexOfCharOf(c1);
    IndexOfCharOf(c2);
    assert IndexOf(q[3]) == None;
    TwoPaddedArithmetic(b0, b1);
  }

  /** A full group in front of decodable text decodes to its three bytes in front. */
  lemma DecodeQuadThen(b0: Byte, b1: Byte, b2: Byte, rest: string, tail: seq<Byte>)
    requires |rest| > 0 && Decode(rest) == Some(tail)
    ensures Decode(Quad(b0, b1, b2) + rest) == Some([b0, b1, b2] + tail)
  {
    var s := Quad(b0, b1, b2) + rest;
    assert s[..4] == Quad(b0, b1, b2);
    assert s[4..] == rest;
    DecodeFullQuad(b0, b1, b2, false);
  }

  /** Text of exactly one group decodes as a final group. */
  lemma DecodeSingleGroup(q: string, bytes: seq<Byte>)
    requires |q| == 4 && DecodeQuad(q, true) == Some(bytes)
    ensures Decode(q) == Some(bytes)
  {
    assert q[..4] == q && q[4..] == [];
    assert bytes + [] == bytes;
  }

  lemma DecodeEncodeOne(b: seq<Byte>)
    requires |b| == 1
    ensures Decode(Encode(b)) == Some(b)
  {
    var q := [CharOf(b[0] / 4), CharOf((b[0] % 4) * 16), '=', '='];
    assert Encode(b) == q;
    DecodeOnePadded(b[0]);
    DecodeSingleGroup(q, [b[0]]);
    assert [b[0]] == b;
  }

  lemma DecodeEncodeTwo(b: seq<Byte>)
    requires |b| == 2
    ensures Decode(Encode(b)) == Some(b)
  {
    var b0, b1 := b[0], b[1];
    var q := [CharOf(b0 / 4), CharOf((b0 % 4) * 16 + b1 / 16), CharOf((b1 % 16) * 4), '='];
    assert Encode(b) == q;
    DecodeTwoPadded(b0, b1);
    DecodeSingleGroup(q, [b0, b1]);
    assert [b0, b1] == b;
  }

  lemma DecodeEncodeThree(b: seq<Byte>)
    requires |b| == 3
    ensures Decode(Encode(b)) == Some(b)
  {
    var q := Quad(b[0], b[1], b[2]);
    assert Encode(b[3..]) == "";
    assert Encode(b) == q + "";
    assert q + "" == q;
    DecodeFullQuad(b[0], b[1], b[2], true);
    DecodeSingleGroup(q, [b[0], b[1], b[2]]);
    assert [b[0], b[1], b[2]] == b;
  }

  /** Decoding inverts encoding for every byte string. */
  lemma {:induction false} DecodeEncode(b: seq<Byte>)
    ensures Decode(Encode(b)) == Some(b)
    decreases |b|
  {
    if |b| == 1 {
      DecodeEncodeOne(b);
    } else if |b| == 2 {
      DecodeEncodeTwo(b);
    } else if |b| == 3 {
      DecodeEncodeThree(b);
    } else if |b| > 3 {
      DecodeEncode(b[3..]);
      DecodeQuadThen(b[0], b[1], b[2], Encode(b[3..]), b[3..]);
      assert [b[0], b[1], b[2]] + b[3..] == b;
    }
  }

  /** A group holding a character that is neither in the alphabet nor `=`
      is rejected, final or not. */
  lemma DecodeQuadForeign(q: string, last: bool, j: int)
    requires |q| == 4 && 0 <= j < 4 && !IsEncodedChar(q[j])
    ensures DecodeQuad(q, last).None?
  {
  }

  /** The decoder is strict: text holding any character that is neither in
      the alphabet nor `=` is rejected, wherever that character stands. */
  lemma {:induction false} ForeignCharacterRejected(s: string, i: int)
    requires 0 <= i < |s| && !IsEncodedChar(s[i])
    ensures Decode(s).None?
    decreases |s|
  {
    if |s| >= 4 {
      if i < 4 {
        assert s[..4][i] == s[i];
        DecodeQuadForeign(s[..4], |s| == 4, i);
      } else {
        assert s[4..][i - 4] == s[i];
        ForeignCharacterRejected(s[4..], i - 4);
      }
    }
  }
}

=== FILE: cache.dfy ===
/** The Redis instance the services share: string keys with string values
    and an absolute expiry time. The clock is a natural number of seconds;
    an entry is visible while the clock is below its expiry. */
module Cache {
  import opened Wrappers

  datatype Entry = Entry(value: string, expiresAt: nat)

  type Store = map<string, Entry>

  predicate Live(c: Store, key: string, now: nat)
  {
    key in c && now < c[key].expiresAt
  }

  /** `GET key`: the value of a live entry, None once it has expired. */
  function Get(c: Store, key: string, now: nat): (r: Option<string>)
    ensures r.Some? <==> Live(c, key, now)
    ensures r.Some? ==> r.value == c[key].value
  {
    if Live(c, key, now) then Some(c[key].value) else None
  }

  /** `SET key value EX ttl`: overwrites any entry and restarts its lifetime. */
  function Set(c: Store, key: string, value: string, ttl: nat, now: nat): (r: Store)
    ensures key in r && r[key] == Entry(value, now + ttl)
    ensures forall k :: k != key ==> (k in r <==> k in c) && (k in c ==> r[k] == c[k])
  {
    c[key := Entry(value, now + ttl)]
  }
}

=== FILE: capturetheflag.dfy ===
/** `routers/capturetheflag.py`: the Rick-Roll flag, reached through an
    obfuscated `code` naming the badge, and the five endpoints that run the
    CTF pipeline for the caller's own badge. */
module CaptureTheFlag {
  import opened Wrappers
  import Text
  import PubSub
  import Users
  import Events
  import Achievements
  import EncryptDecrypt
  import opened Backend
  import ProcessCtfAction

  const RedirectUrl := "https://rb.gy/8dpuen"

  /** The event id every endpoint of this router logs. */
  const CtfEventId := 17

  const AnonymousRickRoll := "Someone just got Rick Rolled. #pwnd."
  const UnregisteredBadge := "Someone got an achievement but didn't register their badge..."

  function AlreadyPwnedMessage(handle: string): string
  {
    handle + " was already #pwnd. Guess they wanted more."
  }

  datatype Redirect = Redirect(location: string, statusCode: nat)

  /** Why the request fails with a server error before anything is written. */
  datatype Failure =
    | NoCode        // `decoder(None)` raises
    | NotDecodable  // the code is not Base64 of UTF-8
    | MissingMac    // `parts[1]` raises IndexError

  /** The work done for a decoded (uuid, mac): every error inside is logged
      and swallowed. */
  function Capture(w: World, failing: set<DbCall>, uuid: string, mac: string): (r: World)
    ensures uuid == "" || mac == "" ==>
              r == w.(published := PubSub.Publish(w.published, PubSub.CommunityChannel, PubSub.Text(AnonymousRickRoll)))
    ensures uuid != "" && mac != "" ==>
              r.db.events == Events.LogEvent(w.db.events, Some(CtfEventId), Some(uuid), Some(mac), LogEventCall in failing).0
    ensures r.db.users == w.db.users && r.db.achievements == w.db.achievements && r.db.staff == w.db.staff
            && r.cache == w.cache && r.clock == w.clock
    ensures |w.published| <= |r.published| <= |w.published| + 1 && r.published[..|w.published|] == w.published
  {
    if uuid == "" || mac == "" then
      w.(published := PubSub.Publish(w.published, PubSub.CommunityChannel, PubSub.Text(AnonymousRickRoll)))
    else
      var (events, _) := Events.LogEvent(w.db.events, Some(CtfEventId), Some(uuid), Some(mac), LogEventCall in failing);
      var w1 := w.(db := w.db.(events := events));
      match Users.GetUserByDevice(w.db.users, uuid, mac, UserLookup in failing)
      case None => w1.(published := PubSub.Publish(w1.published, PubSub.CommunityChannel, PubSub.Text(UnregisteredBadge)))
      case Some(user) =>
        var rick := Achievements.Get(Achievements.RickRolled);
        match Achievements.GetAchievementView(w.db.achievements, w.db.unlocks.rows, user.id, rick.id,
                                              AchievementLookup in failing)
        case None => w1
        case Some(view) =>
          if view.userHasAchievement == 0 then
            var (t, _) := Achievements.InsertUserAchievement(w1.db.unlocks, user.id, rick.id, UnlockInsert in failing);
            w1.(db := w1.db.(unlocks := t),
                published := PubSub.Publish(w1.published, PubSub.AchievementChannel,
                                            PubSub.AchievementUnlocked(user.discordHandle, rick.name,
                                                                       rick.description, rick.points)))
          else
            w1.(published := PubSub.Publish(w1.published, PubSub.CommunityChannel,
                                            PubSub.Text(AlreadyPwnedMessage(user.discordHandle))))
  }

  /** `capture_the_flag(request, code)`: decode the code, split it on `&`
      into uuid and mac, run `Capture`, and redirect. */
  function CaptureTheFlag(w: World, failing: set<DbCall>, code: Option<string>): (r: Result<(World, Redirect), Failure>)
    ensures r.Ok? <==> code.Some? && EncryptDecrypt.Decoder(code.value).Some?
                       && |Text.Split(EncryptDecrypt.Decoder(code.value).value, '&')| >= 2
    ensures r.Ok? ==> r.value.1 == Redirect(RedirectUrl, 302)
    ensures r.Ok? ==>
              var parts := Text.Split(EncryptDecrypt.Decoder(code.value).value, '&');
              r.value.0 == Capture(w, failing, parts[0], parts[1])
  {
    if code.None? then Err(NoCode)
    else match EncryptDecrypt.Decoder(code.value)
      case None => Err(NotDecodable)
      case Some(decoded) =>
        var parts := Text.Split(decoded, '&');
        if |parts| < 2 then Err(MissingMac)
        else Ok((Capture(w, failing, parts[0], parts[1]), Redirect(RedirectUrl, 302)))
  }

  /** A code built the way the badge builds it, `encoder(uuid + "&" + mac)`,
      reaches `Capture` with exactly that uuid and mac. */
  lemma CodeRoundTrip(w: World, failing: set<DbCall>, uuid: string, mac: string)
    requires '&' !in uuid && '&' !in mac
    ensures CaptureTheFlag(w, failing, Some(EncryptDecrypt.Encoder(uuid + "&" + mac)))
         == Ok((Capture(w, failing, uuid, mac), Redirect(RedirectUrl, 302)))
  {
    EncryptDecrypt.DecoderEncoder(uuid + "&" + mac);
    Text.SplitPair(uuid, '&', mac);
  }

  /** A decoded code without `&` fails before any event is logged. */
  lemma CodeWithoutSeparatorFails(w: World, failing: set<DbCall>, s: string)
    requires '&' !in s
    ensures CaptureTheFlag(w, failing, Some(EncryptDecrypt.Encoder(s))) == Err(MissingMac)
  {
    EncryptDecrypt.DecoderEncoder(s);
    Text.SplitWithoutSeparator(s, '&');
  }

  /** A registered badge without Rick Rolled: the event is logged, the
      unlock of achievement 1 inserted, and exactly one achievement message
      is published (no community message). */
  lemma CaptureFirstTime(w: World, failing: set<DbCall>, uuid: string, mac: string, user: Users.User)
    requires uuid != "" && mac != ""
    requires Users.GetUserByDevice(w.db.users, uuid, mac, UserLookup in failing) == Some(user)
    requires AchievementLookup !in failing
    requires exists i :: 0 <= i < |w.db.achievements| && w.db.achievements[i].id == 1
    requires !Achievements.HasUnlock(w.db.unlocks.rows, user.id, 1)
    ensures var r := Capture(w, failing, uuid, mac);
            r.db.unlocks == Achievements.InsertUserAchievement(w.db.unlocks, user.id, 1, UnlockInsert in failing).0
            && r.published == w.published + [PubSub.Message(PubSub.AchievementChannel,
                                 PubSub.AchievementUnlocked(user.discordHandle, "Rick Rolled", "IYKYK", 1))]
  {
  }

  /** A registered badge that already has it: one community message, no
      insert. */
  lemma CaptureAgain(w: World, failing: set<DbCall>, uuid: string, mac: string, user: Users.User)
    requires uuid != "" && mac != ""
    requires Users.GetUserByDevice(w.db.users, uuid, mac, UserLookup in failing) == Some(user)
    requires AchievementLookup !in failing
    requires exists i :: 0 <= i < |w.db.achievements| && w.db.achievements[i].id == 1
    requires Achievements.HasUnlock(w.db.unlocks.rows, user.id, 1)
    ensures var r := Capture(w, failing, uuid, mac);
            r.db.unlocks == w.db.unlocks
            && r.published == w.published + [PubSub.Message(PubSub.CommunityChannel,
                                 PubSub.Text(AlreadyPwnedMessage(user.discordHandle)))]
  {
  }

  /** An unregistered badge: the event is logged and the community hears of
      an unregistered badge; nothing is inserted. */
  lemma CaptureUnregistered(w: World, failing: set<DbCall>, uuid: string, mac: string)
    requires uuid != "" && mac != ""
    requires UserLookup in failing
             || forall i :: 0 <= i < |w.db.users| ==> !Users.OwnsDevice(w.db.users[i], uuid, mac)
    ensures var r := Capture(w, failing, uuid, mac);
            r.db.unlocks == w.db.unlocks
            && r.published == w.published + [PubSub.Message(PubSub.CommunityChannel, PubSub.Text(UnregisteredBadge))]
  {
  }

  /** The Rick Roll never records a pair twice. */
  lemma CaptureKeepsPairAtMostOnce(w: World, failing: set<DbCall>, uuid: string, mac: string, u: int, aid: int)
    requires Achievements.CountUnlocks(w.db.unlocks.rows, u, aid) <= 1
    ensures Achievements.CountUnlocks(Capture(w, failing, uuid, mac).db.unlocks.rows, u, aid) <= 1
  {
    if uuid != "" && mac != "" {
      var user := Users.GetUserByDevice(w.db.users, uuid, mac, UserLookup in failing);
      if user.Some? {
        Achievements.HasUnlockIffCounted(w.db.unlocks.rows, user.value.id, 1);
      }
    }
  }

  /** The five pipeline endpoints under `/capturetheflag`. */
  datatype Endpoint = HelloWorldPath | SerialPath | APConnPath | WebAuthPath | FlagTxtPath

  function Path(e: Endpoint): string
  {
    match e
    case HelloWorldPath => "/capturetheflag/HelloWorld"
    case SerialPath => "/capturetheflag/Serial"
    case APConnPath => "/capturetheflag/APConn"
    case WebAuthPath => "/capturetheflag/WebAuth"
    case FlagTxtPath => "/capturetheflag/FlagTxt"
  }

  /** The catalogue entry each endpoint awards. */
  function Awarded(e: Endpoint): Achievements.Key
  {
    match e
    case HelloWorldPath => Achievements.HelloWorld
    case SerialPath => Achievements.SerialPortInteraction
    case APConnPath => Achievements.BadgeAccessPoint
    case WebAuthPath => Achievements.BadgeWebAuth
    case FlagTxtPath => Achievements.FlagText
  }

  /** A pipeline endpoint: `ctf_action` for the first row of `request.user`
      (the rows the authentication gate matched), with event 17 and the
      endpoint's achievement. None where `request.user[0]` raises. The
      dispatch is all this function does; what the call does is stated by
      `ProcessCtfAction.CtfAction` and the bindings by `EndpointBindings`. */
  function CtfEndpoint(w: World, o: ProcessCtfAction.Oracles, e: Endpoint, requestUser: seq<Users.User>)
    : (r: Option<(World, ProcessCtfAction.Reply)>)
    ensures r.Some? <==> |requestUser| > 0
    ensures r.Some? ==> r.value == ProcessCtfAction.CtfAction(w, o, Some(requestUser[0].uuid),
                                                              Some(requestUser[0].macAddress), CtfEventId,
                                                              Achievements.Get(Awarded(e)))
  {
    if |requestUser| == 0 then None
    else
      Some(ProcessCtfAction.CtfAction(w, o, Some(requestUser[0].uuid), Some(requestUser[0].macAddress),
                                      CtfEventId, Achievements.Get(Awarded(e))))
  }

  /** The endpoints award Hello World (8), Serial Port Interaction (3),
      Badge Access Point (5), Badge Web Authentication (6) and Flag Text (7):
      five distinct achievements, never Rick Rolled. */
  lemma EndpointBindings(e1: Endpoint, e2: Endpoint)
    ensures Achievements.Get(Awarded(HelloWorldPath)).id == 8
    ensures Achievements.Get(Awarded(SerialPath)).id == 3
    ensures Achievements.Get(Awarded(APConnPath)).id == 5
    ensures Achievements.Get(Awarded(WebAuthPath)).id == 6
    ensures Achievements.Get(Awarded(FlagTxtPath)).id == 7
    ensures e1 != e2 ==> Achievements.Get(Awarded(e1)).id != Achievements.Get(Awarded(e2)).id
    ensures Achievements.Get(Awarded(e1)).id != Achievements.Get(Achievements.RickRolled).id
  {
  }
}

=== FILE: dependencies.dfy ===
/** `dependencies.py`: the two request gates. `get_token_header` guards the
    routers; the authentication backend maps the badge headers
    `panda-xpress` (uuid) and `panda-mac` to the matching user rows, which
    the handlers then read as `request.user`. */
module Dependencies {
  import opened Wrappers
  import Text
  import Users
  import Http

  const XpressMissing := "X-Token header invalid - panda-xpress missing"
  const MacMissing := "X-Token header invalid - panda-mac is missing"
  const InvalidCombination := "Invalid panda-xpress & panda-mac combination."

  /** The two badge headers; None when absent. */
  datatype Headers = Headers(xpress: Option<string>, mac: Option<string>)

  /** `get_token_header`: the Rick-Roll path needs no headers; elsewhere a
      missing uuid header is reported before a missing MAC header. */
  function TokenHeader(path: string, h: Headers): (r: Option<Http.HttpError>)
    ensures path == "/capturetheflag" ==> r.None?
    ensures path != "/capturetheflag" ==> (r.None? <==> h.xpress.Some? && h.mac.Some?)
    ensures path != "/capturetheflag" && h.xpress.None? ==> r == Some(Http.HttpError(400, XpressMissing))
    ensures path != "/capturetheflag" && h.xpress.Some? && h.mac.None? ==> r == Some(Http.HttpError(400, MacMissing))
  {
    if path == "/capturetheflag" then None
    else if h.xpress.None? then Some(Http.HttpError(400, XpressMissing))
    else if h.mac.None? then Some(Http.HttpError(400, MacMissing))
    else None
  }

  datatype AuthOutcome =
    | Anonymous                                                    // `authenticate` returns None
    | Authenticated(uuid: string, mac: string, users: seq<Users.User>)
    | Rejected(error: Http.HttpError)
    | LookupFailed                                                 // the user query raises or gives None

  /** The paths that do not need a registered badge. */
  predicate DocsPath(path: string)
  {
    Text.Contains(path, "/docs") || Text.Contains(path, "/openapi")
  }

  predicate PairingPath(path: string)
  {
    path == "/badge/verify" || path == "/badge/register"
  }

  /** `BearerTokenAuthBackend.authenticate`. */
  function Authenticate(path: string, h: Headers, users: seq<Users.User>, lookupFails: bool): (r: AuthOutcome)
    ensures DocsPath(path) ==> r == Anonymous
    ensures !DocsPath(path) && (path == "/config/mac/register" || path == "/capturetheflag") ==>
              r == Authenticated("asdf", "qwerty", [])
    ensures r.Authenticated? ==> forall u :: u in r.users ==> Users.OwnsDevice(u, r.uuid, r.mac)
    ensures r.Authenticated? && r.users == [] ==>
              path == "/config/mac/register" || path == "/capturetheflag" || PairingPath(path)
    ensures r.Rejected? ==> r.error.status == 400 || r.error == Http.HttpError(401, InvalidCombination)
  {
    if DocsPath(path) then Anonymous
    else if path == "/config/mac/register" || path == "/capturetheflag" then Authenticated("asdf", "qwerty", [])
    else if h.xpress.None? then Rejected(Http.HttpError(400, XpressMissing))
    else if h.mac.None? then Rejected(Http.HttpError(400, MacMissing))
    else if lookupFails then LookupFailed
    else
      var rows := Users.Matching(users, h.xpress.value, h.mac.value);
      if |rows| == 0 then
        if PairingPath(path) then Authenticated(h.xpress.value, h.mac.value, [])
        else Rejected(Http.HttpError(401, InvalidCombination))
      else Authenticated(h.xpress.value, h.mac.value, rows)
  }

  /** A path that needs the headers: a missing one is rejected with the
      same error by both gates, the uuid header first. */
  lemma GatesAgreeOnMissingHeaders(path: string, h: Headers, users: seq<Users.User>, lookupFails: bool)
    requires !DocsPath(path) && path != "/config/mac/register" && path != "/capturetheflag"
    requires h.xpress.None? || h.mac.None?
    ensures Authenticate(path, h, users, lookupFails) == Rejected(TokenHeader(path, h).value)
  {
  }

  /** A known badge: the gate passes the header pair and exactly the user
      rows owning it; an unknown one is refused except on the pairing
      paths, where it passes with no rows. */
  lemma AuthenticateKnownAndUnknown(path: string, xpress: string, mac: string, users: seq<Users.User>)
    requires !DocsPath(path) && path != "/config/mac/register" && path != "/capturetheflag"
    ensures var r := Authenticate(path, Headers(Some(xpress), Some(mac)), users, false);
            ((exists i :: 0 <= i < |users| && Users.OwnsDevice(users[i], xpress, mac)) ==>
               r.Authenticated? && r.uuid == xpress && r.mac == mac && |r.users| > 0
               && forall u :: u in users && Users.OwnsDevice(u, xpress, mac) ==> u in r.users)
            && ((forall i :: 0 <= i < |users| ==> !Users.OwnsDevice(users[i], xpress, mac)) ==>
               r == (if PairingPath(path) then Authenticated(xpress, mac, [])
                     else Rejected(Http.HttpError(401, InvalidCombination))))
  {
    var rows := Users.Matching(users, xpress, mac);
    if exists i :: 0 <= i < |users| && Users.OwnsDevice(users[i], xpress, mac) {
      var i :| 0 <= i < |users| && Users.OwnsDevice(users[i], xpress, mac);
      assert users[i] in rows;
    }
  }

  /** What the handlers read as `request.user[0]` is a row of the badge
      that sent the headers. */
  lemma FirstRequestUserOwnsDevice(path: string, h: Headers, users: seq<Users.User>, lookupFails: bool)
    requires Authenticate(path, h, users, lookupFails).Authenticated?
    requires |Authenticate(path, h, users, lookupFails).users| > 0
    ensures var r := Authenticate(path, h, users, lookupFails);
            r.users[0].uuid == r.uuid && r.users[0].macAddress == r.mac
            && h.xpress == Some(r.uuid) && h.mac == Some(r.mac)
  {
    var r := Authenticate(path, h, users, lookupFails);
    assert r.users[0] in r.users;
  }
}

=== FILE: encrypt_decrypt.dfy ===
/** The obfuscation codec of `utilities/encrypt_decrypt.py`: every code
    point is XORed with 0x69, the result is UTF-8 encoded and then Base64
    encoded; the decoder undoes the three steps in reverse order. */
module EncryptDecrypt {
  import opened Wrappers
  import Utf8
  import Base64

  const XorKey: nat := 0x69

  /** Python's `^` on non-negative integers, bit by bit from the lowest. */
  function Xor(a: nat, b: nat): nat
    decreases a + b
  {
    if a == 0 && b == 0 then 0
    else 2 * Xor(a / 2, b / 2) + (if a % 2 == b % 2 then 0 else 1)
  }

  function Pow2(n: nat): (r: nat)
    ensures r >= 1
  {
    if n == 0 then 1 else 2 * Pow2(n - 1)
  }

  /** XOR with a fixed operand undoes itself. */
  lemma {:induction false} XorInvolution(a: nat, k: nat)
    ensures Xor(Xor(a, k), k) == a
    decreases a + k
  {
    var x := Xor(a, k);
    if a == 0 && k == 0 {
    } else {
      var bit := if a % 2 == k % 2 then 0 else 1;
      assert x == 2 * Xor(a / 2, k / 2) + bit;
      assert x / 2 == Xor(a / 2, k / 2) && x % 2 == bit;
      XorInvolution(a / 2, k / 2);
      assert Xor(x, k) == 2 * Xor(x / 2, k / 2) + (if x % 2 == k % 2 then 0 else 1);
    }
  }

  /** XOR of two numbers below `2^n` stays below `2^n`. */
  lemma {:induction false} XorBelow(a: nat, b: nat, n: nat)
    requires a < Pow2(n) && b < Pow2(n)
    ensures Xor(a, b) < Pow2(n)
    decreases n
  {
    if a == 0 && b == 0 {
    } else if n == 0 {
    } else {
      XorBelow(a / 2, b / 2, n - 1);
    }
  }

  /** XOR of a byte value with the key. */
  function XorByte(b: nat): (r: nat)
    requires b < 256
    ensures r < 256
  {
    assert Pow2(8) == 256 && XorKey < Pow2(8);
    XorBelow(b, XorKey, 8);
    Xor(b, XorKey)
  }

  lemma XorByteInvolution(b: nat)
    requires b < 256
    ensures XorByte(XorByte(b)) == b
  {
    XorInvolution(b, XorKey);
  }

  /** The key is below 0x80, so XOR keeps 7-bit values 7-bit and others not. */
  lemma XorByteAscii(b: nat)
    requires b < 256
    ensures b < 0x80 <==> XorByte(b) < 0x80
  {
    assert Pow2(7) == 0x80 && XorKey < Pow2(7);
    if b < 0x80 {
      XorBelow(b, XorKey, 7);
    }
    if XorByte(b) < 0x80 {
      XorBelow(XorByte(b), XorKey, 7);
      XorByteInvolution(b);
    }
  }

  /** `chr(ord(c) ^ XOR_KEY)`: the key only touches the low byte of the code
      point, so the result is again a scalar value. */
  function XorChar(c: char): (r: char)
    ensures (c as int) / 256 == (r as int) / 256
    ensures (r as int) % 256 == XorByte((c as int) % 256)
  {
    var n := c as int;
    var lo := n % 256;
    var m := n - lo + XorByte(lo);
    assert (n - lo) % 256 == 0;
    assert n < 0xD800 ==> n - lo <= 0xD700;
    assert n >= 0xE000 ==> n - lo >= 0xE000;
    m as char
  }

  function XorAll(s: string): (r: string)
    ensures |r| == |s|
    ensures forall i :: 0 <= i < |s| ==> r[i] == XorChar(s[i])
  {
    seq(|s|, i requires 0 <= i < |s| => XorChar(s[i]))
  }

  /** XOR with the key is an involution on every character. */
  lemma XorCharInvolution(c: char)
    ensures XorChar(XorChar(c)) == c
  {
    var d := XorChar(c);
    var e := XorChar(d);
    XorByteInvolution((c as int) % 256);
    assert (e as int) / 256 == (c as int) / 256;
    assert (e as int) % 256 == (c as int) % 256;
    assert e as int == c as int;
  }

  lemma XorAllInvolution(s: string)
    ensures XorAll(XorAll(s)) == s
  {
    forall i | 0 <= i < |s|
      ensures XorAll(XorAll(s))[i] == s[i]
    {
      XorCharInvolution(s[i]);
    }
  }

  /** XOR keeps ASCII characters ASCII and non-ASCII ones non-ASCII. */
  lemma XorCharAscii(c: char)
    ensures c as int < 0x80 <==> XorChar(c) as int < 0x80
  {
    XorByteAscii((c as int) % 256);
  }

  /** `encoder(value)`. */
  function Encoder(s: string): (r: string)
    ensures |r| == 4 * ((|Utf8.Encode(XorAll(s))| + 2) / 3)
  {
    Base64.Encode(Utf8.Encode(XorAll(s)))
  }

  /** `decoder(value)`: None where the Base64 text is rejected or its bytes
      are not UTF-8; otherwise the XOR of the decoded text. */
  function Decoder(s: string): (r: Option<string>)
    ensures r.Some? <==> Base64.Decode(s).Some? && Utf8.Decode(Base64.Decode(s).value).Some?
    ensures r.Some? ==> XorAll(r.value) == Utf8.Decode(Base64.Decode(s).value).value
  {
    match Base64.Decode(s)
    case None => None
    case Some(bytes) =>
      match Utf8.Decode(bytes)
      case None => None
      case Some(t) =>
        XorAllInvolution(t);
        Some(XorAll(t))
  }

  /** The decoder inverts the encoder on every string of scalar values. */
  lemma DecoderEncoder(s: string)
    ensures Decoder(Encoder(s)) == Some(s)
  {
    var x := XorAll(s);
    Base64.DecodeEncode(Utf8.Encode(x));
    Utf8.DecodeEncode(x);
    XorAllInvolution(s);
  }

  /** ASCII input gives exactly one UTF-8 byte per character, so the encoded
      text has `4 * ceil(len(s) / 3)` characters. */
  lemma EncoderAsciiLength(s: string)
    requires forall i :: 0 <= i < |s| ==> s[i] as int < 0x80
    ensures |Utf8.Encode(XorAll(s))| == |s|
    ensures |Encoder(s)| == 4 * ((|s| + 2) / 3)
  {
    var x := XorAll(s);
    forall i | 0 <= i < |x|
      ensures x[i] as int < 0x80
    {
      XorCharAscii(s[i]);
    }
    Utf8.EncodeAsciiLength(x);
  }

  /** The encoder's output is padded Base64 text. */
  lemma EncoderAlphabet(s: string)
    ensures forall i :: 0 <= i < |Encoder(s)| ==> Base64.IsEncodedChar(Encoder(s)[i])
  {
    Base64.EncodeAlphabet(Utf8.Encode(XorAll(s)));
  }

  /** The Base64 text of any payload that is not UTF-8 makes the decoder
      fail. */
  lemma DecoderRejectsNonUtf8(b: seq<Base64.Byte>)
    requires Utf8.Decode(b).None?
    ensures Decoder(Base64.Encode(b)) == None
  {
    Base64.DecodeEncode(b);
  }

  /** For instance, "/w==" (the single byte 0xFF) is rejected. */
  lemma DecoderRejectsLoneFF()
    ensures Decoder("/w==") == None
  {
    var q := "/w==";
    assert Base64.IndexOf(q[0]) == Some(63) && Base64.IndexOf(q[1]) == Some(48);
    assert Base64.IndexOf(q[2]) == None && Base64.IndexOf(q[3]) == None;
    assert Base64.Bytes3(63, 48, 0, 0)[..1] == [0xFF];
    assert Base64.DecodeQuad(q, true) == Some([0xFF]);
    Base64.DecodeSingleGroup(q, [0xFF]);
    Utf8.InvalidByteRejected();
  }
}

=== FILE: events.dfy ===
/** `utilities/events.py`: the append-only `events` table. */
module Events {
  import opened Wrappers
  import PgSql

  /** One row: the generated id and the three inserted columns, each of which
      may be NULL. */
  datatype EventRow = EventRow(id: nat, eventId: Option<int>, uuid: Option<string>, macAddress: Option<string>)

  /** The table and the id its sequence hands out next. */
  datatype EventLog = EventLog(rows: seq<EventRow>, nextId: nat)

  /** Every stored id is below the next one the sequence hands out. */
  predicate Fresh(log: EventLog)
  {
    forall i :: 0 <= i < |log.rows| ==> log.rows[i].id < log.nextId
  }

  /** `log_event(db, event_id, uuid, mac_address)`: inserts one row (values
      passed through `nullify`) and returns the id of the new row; when the
      insert raises, the error is swallowed, nothing is stored and None is
      returned. */
  function LogEvent(log: EventLog, eventId: Option<int>, uuid: Option<string>, mac: Option<string>,
                    insertFails: bool): (r: (EventLog, Option<nat>))
    ensures insertFails ==> r == (log, None)
    ensures !insertFails ==>
              r.0.rows == log.rows + [EventRow(log.nextId, eventId, uuid, mac)]
              && r.1 == Some(log.nextId)
    ensures Fresh(log) ==> Fresh(r.0)
    ensures Fresh(log) && r.1.Some? ==> forall i :: 0 <= i < |log.rows| ==> log.rows[i].id != r.1.value
  {
    if insertFails then (log, None)
    else
      var row := EventRow(log.nextId, PgSql.Nullify(eventId), PgSql.Nullify(uuid), PgSql.Nullify(mac));
      (EventLog(log.rows + [row], log.nextId + 1), Some(row.id))
  }
}

=== FILE: games.dfy ===
/** `routers/games.py`: listing queries with a sort order chosen from a
    fixed map, and the recording of a played game, announced twice on
    `high-score-processor`. */
module Games {
  import opened Wrappers
  import Text
  import PubSub
  import Users
  import Paging
  import Http
  import PgSql

  /** The `mapper` of `simple_sort`, by category and sort name. A name that
      is not a key gives None: the lookup then yields the string
      `"default"` itself, and indexing it raises. */
  function Mapper(category: string, sortBy: string): (r: Option<seq<Paging.SortKey>>)
    ensures r.Some? <==> (category == "game" && sortBy in ["asc", "desc", "default"])
                         || (category == "score" && sortBy in ["best", "worst", "recent", "stale", "default"])
    ensures r.Some? ==> 1 <= |r.value| <= 2
  {
    if category == "game" then
      if sortBy == "asc" then Some([Paging.SortKey("game_name", "asc")])
      else if sortBy == "desc" then Some([Paging.SortKey("game_name", "desc")])
      else if sortBy == "default" then Some([Paging.SortKey("game_name", "asc")])
      else None
    else if category == "score" then
      if sortBy == "best" then Some([Paging.SortKey("score", "desc"), Paging.SortKey("duration", "asc")])
      else if sortBy == "worst" then Some([Paging.SortKey("score", "asc"), Paging.SortKey("duration", "desc")])
      else if sortBy == "recent" then Some([Paging.SortKey("id", "desc")])
      else if sortBy == "stale" then Some([Paging.SortKey("id", "asc")])
      else if sortBy == "default" then Some([Paging.SortKey("score", "desc"), Paging.SortKey("duration", "asc")])
      else None
    else None
  }

  /** `alias.field order` for each key. */
  function OrderTerms(keys: seq<Paging.SortKey>, alias: string): (r: seq<string>)
    ensures |r| == |keys|
  {
    seq(|keys|, i requires 0 <= i < |keys| => alias + "." + keys[i].field + " " + keys[i].order)
  }

  /** `simple_sort(query, category, sort_by, alias)`; None where it raises. */
  function SimpleSort(query: string, category: string, sortBy: string, alias: string): (r: Option<string>)
    ensures r.Some? <==> Mapper(category, sortBy).Some?
    ensures r.Some? ==> |r.value| > |query| && r.value[..|query|] == query
  {
    match Mapper(category, sortBy)
    case None => None
    case Some(keys) => Some(query + " ORDER BY " + Text.Join(OrderTerms(keys, alias), ", "))
  }

  /** The leaderboard orders: best is the highest score, ties broken by the
      shortest time; worst reverses both keys; `default` is best; recent and
      stale order by row id. */
  lemma ScoreOrders()
    ensures Mapper("score", "best") == Some([Paging.SortKey("score", "desc"), Paging.SortKey("duration", "asc")])
    ensures Mapper("score", "worst") == Some([Paging.SortKey("score", "asc"), Paging.SortKey("duration", "desc")])
    ensures Mapper("score", "default") == Mapper("score", "best")
    ensures Mapper("score", "recent") == Some([Paging.SortKey("id", "desc")])
    ensures Mapper("score", "stale") == Some([Paging.SortKey("id", "asc")])
  {
  }

  /** A one-key entry renders as `ORDER BY alias.field order`. */
  lemma SingleKeySort(q: string, category: string, sortBy: string, alias: string, k: Paging.SortKey)
    requires Mapper(category, sortBy) == Some([k])
    ensures SimpleSort(q, category, sortBy, alias) == Some(q + " ORDER BY " + (alias + "." + k.field + " " + k.order))
  {
  }

  /** A two-key entry renders both terms in order, comma separated. */
  lemma TwoKeySort(q: string, category: string, sortBy: string, alias: string, k1: Paging.SortKey, k2: Paging.SortKey)
    requires Mapper(category, sortBy) == Some([k1, k2])
    ensures SimpleSort(q, category, sortBy, alias)
         == Some(q + " ORDER BY " + ((alias + "." + k1.field + " " + k1.order) + ", "
                                    + (alias + "." + k2.field + " " + k2.order)))
  {
    var terms := OrderTerms([k1, k2], alias);
    assert terms[0] == alias + "." + k1.field + " " + k1.order;
    assert terms[1] == alias + "." + k2.field + " " + k2.order;
    assert terms[1..] == [terms[1]];
    assert Text.Join(terms, ", ") == terms[0] + ", " + terms[1];
  }

  /** A sort name outside the category's keys raises instead of using its
      `"default"` entry; so does any unknown category. */
  lemma UnknownSortRaises(q: string, category: string, sortBy: string, alias: string)
    requires sortBy !in ["asc", "desc", "default", "best", "worst", "recent", "stale"]
             || (category != "game" && category != "score")
    ensures SimpleSort(q, category, sortBy, alias).None?
  {
  }

  /** A listing endpoint of this router: page check, sort, paging. */
  function GameListing(baseQuery: string, category: string, alias: string, page: int, pageSize: int, sortBy: string)
    : (r: Result<Paging.Listing, Paging.ListingError>)
    ensures r.Ok? <==> Paging.CheckPage(page, pageSize).None? && Mapper(category, sortBy).Some?
    ensures Paging.CheckPage(page, pageSize).Some? ==> r == Err(Paging.BadPage(Paging.CheckPage(page, pageSize).value))
    ensures Paging.CheckPage(page, pageSize).None? && Mapper(category, sortBy).None? ==> r == Err(Paging.UnknownSort)
    ensures r.Ok? ==> r.value.offset == (page - 1) * pageSize && r.value.limit == pageSize
                      && r.value.query == Paging.AddLimitAndOffset(SimpleSort(baseQuery, category, sortBy, alias).value)
                      && |r.value.query| > |baseQuery| && r.value.query[..|baseQuery|] == baseQuery
  {
    var sorted := SimpleSort(baseQuery, category, sortBy, alias);
    var r := Paging.BuildListing(page, pageSize, sorted);
    if r.Ok? then
      assert r.value.query[..|sorted.value|] == sorted.value;
      assert r.value.query[..|baseQuery|] == sorted.value[..|baseQuery|];
      r
    else r
  }

  /** The next page of a games listing runs the same query text one
      window further on: its offset is this page's offset plus the limit. */
  lemma GameListingNextPage(baseQuery: string, category: string, alias: string, page: int, pageSize: int,
                            sortBy: string)
    requires GameListing(baseQuery, category, alias, page, pageSize, sortBy).Ok?
    ensures var cur := GameListing(baseQuery, category, alias, page, pageSize, sortBy).value;
            var next := GameListing(baseQuery, category, alias, page + 1, pageSize, sortBy);
            next.Ok? && next.value.query == cur.query && next.value.offset == cur.offset + cur.limit
  {
  }

  /** A row of `game_list`. */
  datatype GameRow = GameRow(id: int, gameName: string)

  /** A row of `game_score`. */
  datatype ScoreRow = ScoreRow(id: nat, gameId: int, gameName: string, score: int, duration: int,
                               userUuid: string, userMac: string)

  datatype GamesDb = GamesDb(games: seq<GameRow>, scores: seq<ScoreRow>, nextId: nat)

  /** The JSON body a badge posts; a missing member is None. */
  datatype ScoreBody = ScoreBody(score: Option<int>, duration: Option<int>)

  datatype InsertReply =
    | Recorded(recordId: Option<int>)   // SUCCESS with the new id (None if the insert gave none)
    | GameNotFound(message: string)     // ERROR
    | NothingWritten(message: string)   // SUCCESS without a body

  /** The first `game_list` row of that name. */
  function FindGame(games: seq<GameRow>, name: string): (r: Option<GameRow>)
    ensures r.None? <==> forall i :: 0 <= i < |games| ==> games[i].gameName != name
    ensures r.Some? ==> r.value in games && r.value.gameName == name
    decreases |games|
  {
    if |games| == 0 then None
    else if games[0].gameName == name then Some(games[0])
    else
      assert forall i :: 1 <= i < |games| ==> games[i] == games[1..][i - 1];
      FindGame(games[1..], name)
  }

  /** `insert_my_game_score(request, game)`: `requestUser` is what the gate
      matched, `xpress`/`mac` the badge headers. The game is looked up
      first; the score row uses the first user row; `insert` is how the
      INSERT ends. An exception from it escapes before either publish. */
  function InsertMyGameScore(db: GamesDb, published: seq<PubSub.Message>, requestUser: seq<Users.User>,
                             xpress: string, mac: string, game: string, body: Option<ScoreBody>, insert: PgSql.InsertOutcome)
    : (r: Result<(GamesDb, seq<PubSub.Message>, InsertReply), Http.Failure>)
    ensures body.None? ==> r == Ok((db, published, NothingWritten(Http.NoBodyMessage)))
    ensures body.Some? && FindGame(db.games, game).None? ==>
              r == Ok((db, published, GameNotFound("Game: " + game + " not found")))
    ensures r.Ok? && r.value.2.Recorded? ==>
              FindGame(db.games, game).Some?
              && r.value.1 == published
                 + [PubSub.Message(PubSub.HighScoreChannel, PubSub.AroundTheWorld(xpress, mac)),
                    PubSub.Message(PubSub.HighScoreChannel, PubSub.ChallengeCheck(xpress, mac, r.value.2.recordId))]
    ensures r.Ok? && r.value.2.Recorded? && r.value.2.recordId.Some? ==>
              body.Some? && body.value.score.Some? && body.value.duration.Some? && |requestUser| > 0
              && FindGame(db.games, game).Some? && |r.value.0.scores| == |db.scores| + 1
              && var row := r.value.0.scores[|db.scores|];
                 r.value.0.scores == db.scores + [row] && row.id == r.value.2.recordId.value
                 && row.gameId == FindGame(db.games, game).value.id && row.gameName == game
                 && row.score == body.value.score.value && row.duration == body.value.duration.value
                 && row.userUuid == requestUser[0].uuid && row.userMac == requestUser[0].macAddress
    ensures r.Err? ==> r == Err(Http.Crashed) && body.Some? && FindGame(db.games, game).Some?
                       && (|requestUser| == 0 || body.value.score.None? || body.value.duration.None?
                           || insert.InsertRaises?)
    ensures body.Some? && FindGame(db.games, game).Some? && insert.InsertRaises? ==> r == Err(Http.Crashed)
    ensures body.Some? && FindGame(db.games, game).Some? && |requestUser| > 0
            && body.value.score.Some? && body.value.duration.Some? && !insert.InsertRaises? ==>
              r.Ok? && r.value.2.Recorded? && (r.value.2.recordId.None? <==> insert.NoRowId?)
    ensures r.Ok? && !(r.value.2.Recorded? && r.value.2.recordId.Some?) ==> r.value.0 == db
  {
    if body.None? then Ok((db, published, NothingWritten(Http.NoBodyMessage)))
    else match FindGame(db.games, game)
      case None => Ok((db, published, GameNotFound("Game: " + game + " not found")))
      case Some(g) =>
        if |requestUser| == 0 || body.value.score.None? || body.value.duration.None? || insert.InsertRaises? then
          Err(Http.Crashed)
        else
          var row := ScoreRow(db.nextId, g.id, game, body.value.score.value, body.value.duration.value,
                              requestUser[0].uuid, requestUser[0].macAddress);
          var db' := if insert.NoRowId? then db else db.(scores := db.scores + [row], nextId := db.nextId + 1);
          var recordId: Option<int> := if insert.NoRowId? then None else Some(db.nextId);
          var p1 := PubSub.Publish(published, PubSub.HighScoreChannel, PubSub.AroundTheWorld(xpress, mac));
          var p2 := PubSub.Publish(p1, PubSub.HighScoreChannel, PubSub.ChallengeCheck(xpress, mac, recordId));
          Ok((db', p2, Recorded(recordId)))
  }

  /** The rows the query of `GET /games/me/{game}` selects, in table order:
      the caller's scores for that game that join a user row. */
  function MyScores(scores: seq<ScoreRow>, users: seq<Users.User>, uuid: string, game: string): (r: seq<ScoreRow>)
    ensures forall x :: x in r <==> x in scores && x.userUuid == uuid && x.gameName == game && Users.Joined(users, uuid)
    decreases |scores|
  {
    if |scores| == 0 then []
    else
      var init := MyScores(scores[..|scores| - 1], users, uuid, game);
      var last := scores[|scores| - 1];
      assert scores == scores[..|scores| - 1] + [last];
      if last.userUuid == uuid && last.gameName == game && Users.Joined(users, uuid) then init + [last] else init
  }

  /** A recorded score is the one new row the caller's own listing for that
      game shows; nobody else's listing changes. */
  lemma RecordedScoreIsListed(db: GamesDb, published: seq<PubSub.Message>, requestUser: seq<Users.User>,
                              users: seq<Users.User>, xpress: string, mac: string, game: string,
                              body: Option<ScoreBody>, uuid: string, g: string)
    requires |requestUser| > 0 && requestUser[0] in users
    requires var r := InsertMyGameScore(db, published, requestUser, xpress, mac, game, body, PgSql.RowWritten);
             r.Ok? && r.value.2.Recorded?
    ensures var after := InsertMyGameScore(db, published, requestUser, xpress, mac, game, body, PgSql.RowWritten).value.0;
            var row := after.scores[|db.scores|];
            MyScores(after.scores, users, uuid, g)
              == MyScores(db.scores, users, uuid, g)
                 + (if uuid == requestUser[0].uuid && g == game then [row] else [])
  {
  }
}

=== FILE: http.dfy ===
/** How a request handler can end other than with its JSON reply. */
module Http {
  /** FastAPI's `HTTPException`: a status code and a detail text. */
  datatype HttpError = HttpError(status: nat, detail: string)

  /** An `HTTPException` reaches the client with its own status and
      detail; any other exception escapes the handler as a 500. */
  datatype Failure = Raised(error: HttpError) | Crashed

  /** The reply of a write endpoint called with an empty body. */
  const NoBodyMessage := "No body passed. Nothing written"
}

=== FILE: mysql.dfy ===
/** The MySQL connector of `connectors/mysql.py`. Its loops differ from the
    PostgreSQL ones: only `mysql.connector.Error` costs budget, and a pass
    whose pooled connection reports `is_connected()` false costs nothing, so
    the loop need not end. The model follows at most `fuel` passes and
    reports `OutOfFuel` when the source would still be looping. */
module MySql {
  import opened Wrappers
  import PgSql

  datatype MyConnection = MyConnection(connected: bool)

  /** `release_resources(conn, cursor)`: closes the cursor, then closes the
      connection only when it is still connected; errors (a failing
      `cursor.close()` among them, which skips the rest) are swallowed. */
  function Release(conn: Option<MyConnection>, cursorCloseFails: bool): (r: Option<MyConnection>)
    ensures conn.None? ==> r.None?
    ensures conn.Some? ==> r.Some?
    ensures conn.Some? && !conn.value.connected ==> r == conn
    ensures conn.Some? && !cursorCloseFails ==> !r.value.connected
  {
    if cursorCloseFails then conn
    else if conn.Some? && conn.value.connected then Some(MyConnection(false))
    else conn
  }

  /** Releasing twice is releasing once. */
  lemma ReleaseTwice(conn: Option<MyConnection>, secondCloseFails: bool)
    ensures Release(Release(conn, false), secondCloseFails) == Release(conn, false)
  {
  }

  /** What one pass of the loop in `execute` meets. */
  datatype ExecAttempt =
    | PoolFails                  // get_connection() raises Error (pool exhausted, ...)
    | NotConnected               // is_connected() is false: nothing happens
    | StatementFails             // cursor.execute() or commit() raise Error
    | Crashes                    // any other exception: propagates
    | Done(lastRowId: int)       // committed; cursor.lastrowid

  datatype Outcome<T> = Returned(value: T) | Raised | OutOfFuel

  datatype ExecRun = ExecRun(outcome: Outcome<Option<int>>, attempts: nat, errors: nat)

  predicate ExecError(a: ExecAttempt)
  {
    a.PoolFails? || a.StatementFails?
  }

  /** Every pass `from .. to-1` sent the loop round again: an `Error`, or
      a connection that is not connected. */
  predicate AllRetried(o: nat -> ExecAttempt, from: nat, to: nat)
    decreases to - from
  {
    to <= from || ((ExecError(o(from)) || o(from).NotConnected?) && AllRetried(o, from + 1, to))
  }

  /** Number of passes `from .. to-1` that raised `Error`. */
  function Errors(o: nat -> ExecAttempt, from: nat, to: nat): nat
    decreases to - from
  {
    if to <= from then 0 else (if ExecError(o(from)) then 1 else 0) + Errors(o, from + 1, to)
  }

  /** The `while available_calls >= 0` loop of `execute`, from pass `k`. */
  function ExecuteLoop(o: nat -> ExecAttempt, insert: bool, budget: int, k: nat, fuel: nat): (r: ExecRun)
    ensures k <= r.attempts <= k + fuel
    ensures r.errors == Errors(o, k, r.attempts)
    ensures r.errors <= (if budget < 0 then 0 else budget + 1)
    ensures r.attempts > k ==> AllRetried(o, k, r.attempts - 1)
    ensures r.outcome.OutOfFuel? ==> r.attempts == k + fuel && budget - r.errors >= 0
    ensures r.outcome.OutOfFuel? && r.attempts > k ==> ExecError(o(r.attempts - 1)) || o(r.attempts - 1).NotConnected?
    ensures r.outcome == Returned(None) && r.attempts > k && !o(r.attempts - 1).Done? ==>
              budget - r.errors < 0
    ensures r.outcome.Returned? && r.outcome.value.Some? ==>
              insert && r.attempts > k && o(r.attempts - 1) == Done(r.outcome.value.value)
    ensures r.attempts > k && o(r.attempts - 1).Done? ==>
              r.outcome == Returned(if insert then Some(o(r.attempts - 1).lastRowId) else None)
    ensures r.outcome.Raised? <==> r.attempts > k && o(r.attempts - 1).Crashes?
    decreases fuel
  {
    if budget < 0 then ExecRun(Returned(None), k, 0)
    else if fuel == 0 then ExecRun(OutOfFuel, k, 0)
    else
      match o(k)
      case Done(id) => ExecRun(Returned(if insert then Some(id) else None), k + 1, 0)
      case Crashes => ExecRun(Raised, k + 1, 0)
      case NotConnected => ExecuteLoop(o, insert, budget, k + 1, fuel - 1)
      case PoolFails | StatementFails =>
        var rest := ExecuteLoop(o, insert, budget - 1, k + 1, fuel - 1);
        ExecRun(rest.outcome, rest.attempts, rest.errors + 1)
  }

  /** `execute(query, args)`, followed for at most `fuel` passes: at most
      four passes raise `Error` before it gives up and returns None. */
  function Execute(query: string, o: nat -> ExecAttempt, fuel: nat): (r: ExecRun)
    ensures r.attempts <= fuel
    ensures r.errors <= 4
    ensures r.outcome.Returned? && r.outcome.value.Some? <==>
              PgSql.IsInsert(query) && r.attempts > 0 && o(r.attempts - 1).Done?
    ensures r.attempts > 0 && o(r.attempts - 1).Done? ==>
              r.outcome == Returned(if PgSql.IsInsert(query) then Some(o(r.attempts - 1).lastRowId) else None)
  {
    ExecuteLoop(o, PgSql.IsInsert(query), PgSql.Retries, 0, fuel)
  }

  lemma DoneEnds(o: nat -> ExecAttempt, insert: bool, budget: int, k: nat, fuel: nat)
    requires budget >= 0 && fuel > 0 && o(k).Done?
    ensures ExecuteLoop(o, insert, budget, k, fuel)
         == ExecRun(Returned(if insert then Some(o(k).lastRowId) else None), k + 1, 0)
  {
  }

  lemma ErrorStep(o: nat -> ExecAttempt, insert: bool, budget: int, k: nat, fuel: nat)
    requires budget >= 0 && fuel > 0 && ExecError(o(k))
    ensures var rest := ExecuteLoop(o, insert, budget - 1, k + 1, fuel - 1);
            ExecuteLoop(o, insert, budget, k, fuel) == ExecRun(rest.outcome, rest.attempts, rest.errors + 1)
  {
  }

  /** A pass that commits after fewer errors than the budget allows ends
      the loop: an insert returns that pass's `lastrowid`, anything else
      None. */
  lemma {:induction false} DoneAfterErrors(o: nat -> ExecAttempt, insert: bool, budget: int, k: nat, j: nat, fuel: nat)
    requires k <= j && j - k <= budget && j - k < fuel
    requires forall i :: k <= i < j ==> ExecError(o(i))
    requires o(j).Done?
    ensures var r := ExecuteLoop(o, insert, budget, k, fuel);
            r.outcome == Returned(if insert then Some(o(j).lastRowId) else None)
            && r.attempts == j + 1 && r.errors == j - k
    decreases j - k
  {
    if k == j {
      DoneEnds(o, insert, budget, k, fuel);
    } else {
      var v: Option<int> := if insert then Some(o(j).lastRowId) else None;
      var rest := ExecuteLoop(o, insert, budget - 1, k + 1, fuel - 1);
      assert rest.outcome == Returned(v) && rest.attempts == j + 1 && rest.errors == j - k - 1 by {
        DoneAfterErrors(o, insert, budget - 1, k + 1, j, fuel - 1);
      }
      assert ExecuteLoop(o, insert, budget, k, fuel) == ExecRun(rest.outcome, rest.attempts, rest.errors + 1) by {
        ErrorStep(o, insert, budget, k, fuel);
      }
    }
  }

  /** `execute` of an insert whose first three passes at most fail returns
      the id of the row the committing pass wrote. */
  lemma InsertReturnsLastRowId(query: string, o: nat -> ExecAttempt, j: nat, fuel: nat)
    requires PgSql.IsInsert(query) && j <= PgSql.Retries && j < fuel
    requires forall i :: 0 <= i < j ==> ExecError(o(i))
    requires o(j).Done?
    ensures Execute(query, o, fuel) == ExecRun(Returned(Some(o(j).lastRowId)), j + 1, j)
  {
    DoneAfterErrors(o, true, PgSql.Retries, 0, j, fuel);
  }

  /** A pool that keeps handing out disconnected connections keeps the loop
      running: however many passes are followed, the call has not returned
      and no budget is spent. */
  lemma {:induction false} NotConnectedNeverEnds(o: nat -> ExecAttempt, insert: bool, budget: int, k: nat, fuel: nat)
    requires budget >= 0
    requires forall i :: o(i) == NotConnected
    ensures ExecuteLoop(o, insert, budget, k, fuel) == ExecRun(OutOfFuel, k + fuel, 0)
    decreases fuel
  {
    if fuel > 0 {
      NotConnectedNeverEnds(o, insert, budget, k + 1, fuel - 1);
    }
  }

  /** Four `Error`s in a row exhaust the budget: None after four passes. */
  lemma FourErrorsExhaust(query: string, o: nat -> ExecAttempt, fuel: nat)
    requires fuel >= 4
    requires forall i :: 0 <= i < 4 ==> ExecError(o(i))
    ensures Execute(query, o, fuel) == ExecRun(Returned(None), 4, 4)
  {
    var ins := PgSql.IsInsert(query);
    assert ExecuteLoop(o, ins, -1, 4, fuel - 4) == ExecRun(Returned(None), 4, 0);
    assert ExecError(o(3));
    assert ExecuteLoop(o, ins, 0, 3, fuel - 3) == ExecRun(Returned(None), 4, 1);
    assert ExecError(o(2));
    assert ExecuteLoop(o, ins, 1, 2, fuel - 2) == ExecRun(Returned(None), 4, 2);
    assert ExecError(o(1));
    assert ExecuteLoop(o, ins, 2, 1, fuel - 1) == ExecRun(Returned(None), 4, 3);
    assert ExecError(o(0));
  }

  /** What one pass of the loop in `select_dataframe` meets. */
  datatype SelectAttempt<T> = Rows(data: T) | SelectFails | SelectNotConnected | SelectCrashes

  datatype SelectRun<T> = SelectRun(outcome: Outcome<Option<T>>, attempts: nat, errors: nat)

  /** Number of passes `from .. to-1` of `select_dataframe` that raised `Error`. */
  function SelectErrors<T>(o: nat -> SelectAttempt<T>, from: nat, to: nat): nat
    decreases to - from
  {
    if to <= from then 0 else (if o(from).SelectFails? then 1 else 0) + SelectErrors(o, from + 1, to)
  }

  /** The loop of `select_dataframe`: the same budget rules as `execute`. */
  function SelectLoop<T>(o: nat -> SelectAttempt<T>, budget: int, k: nat, fuel: nat): (r: SelectRun<T>)
    ensures k <= r.attempts <= k + fuel
    ensures r.errors == SelectErrors(o, k, r.attempts)
    ensures r.errors <= (if budget < 0 then 0 else budget + 1)
    ensures forall i :: k <= i < r.attempts - 1 ==> o(i).SelectFails? || o(i).SelectNotConnected?
    ensures r.outcome.OutOfFuel? ==> r.attempts == k + fuel && budget - r.errors >= 0
    ensures r.outcome.OutOfFuel? && r.attempts > k ==> o(r.attempts - 1).SelectFails? || o(r.attempts - 1).SelectNotConnected?
    ensures r.attempts > k && o(r.attempts - 1).Rows? ==> r.outcome == Returned(Some(o(r.attempts - 1).data))
    ensures r.outcome.Returned? && r.outcome.value.Some? ==>
              r.attempts > k && o(r.attempts - 1) == Rows(r.outcome.value.value)
    ensures r.outcome == Returned(None) <==> budget - r.errors < 0
    ensures r.outcome.Raised? <==> r.attempts > k && o(r.attempts - 1).SelectCrashes?
    decreases fuel
  {
    if budget < 0 then SelectRun(Returned(None), k, 0)
    else if fuel == 0 then SelectRun(OutOfFuel, k, 0)
    else
      match o(k)
      case Rows(data) => SelectRun(Returned(Some(data)), k + 1, 0)
      case SelectCrashes => SelectRun(Raised, k + 1, 0)
      case SelectNotConnected => SelectLoop(o, budget, k + 1, fuel - 1)
      case SelectFails =>
        var rest := SelectLoop(o, budget - 1, k + 1, fuel - 1);
        SelectRun(rest.outcome, rest.attempts, rest.errors + 1)
  }

  /** `select_dataframe(query, args)`, followed for at most `fuel` passes:
      None exactly when four passes raised `Error`; a read returns its rows. */
  function Select<T>(o: nat -> SelectAttempt<T>, fuel: nat): (r: SelectRun<T>)
    ensures r.attempts <= fuel
    ensures r.errors == SelectErrors(o, 0, r.attempts) && r.errors <= 4
    ensures r.outcome == Returned(None) <==> r.errors == 4
    ensures r.attempts > 0 && o(r.attempts - 1).Rows? ==> r.outcome == Returned(Some(o(r.attempts - 1).data))
  {
    SelectLoop(o, PgSql.Retries, 0, fuel)
  }

  /** A read after fewer errors than the budget allows returns its rows. */
  lemma {:induction false} RowsAfterErrors<T>(o: nat -> SelectAttempt<T>, budget: int, k: nat, j: nat, fuel: nat)
    requires k <= j && j - k <= budget && j - k < fuel
    requires forall i :: k <= i < j ==> o(i).SelectFails?
    requires o(j).Rows?
    ensures SelectLoop(o, budget, k, fuel) == SelectRun(Returned(Some(o(j).data)), j + 1, j - k)
    decreases j - k
  {
    if k < j {
      RowsAfterErrors(o, budget - 1, k + 1, j, fuel - 1);
    }
  }

  /** `select_dataframe` whose read succeeds after at most three failures
      returns the rows of that read. */
  lemma SelectReturnsRows<T>(o: nat -> SelectAttempt<T>, j: nat, fuel: nat)
    requires j <= PgSql.Retries && j < fuel
    requires forall i :: 0 <= i < j ==> o(i).SelectFails?
    requires o(j).Rows?
    ensures Select(o, fuel) == SelectRun(Returned(Some(o(j).data)), j + 1, j)
  {
    RowsAfterErrors(o, PgSql.Retries, 0, j, fuel);
  }

  /** Four failed reads exhaust the budget: None after four passes. */
  lemma FourSelectErrorsExhaust<T>(o: nat -> SelectAttempt<T>, fuel: nat)
    requires fuel >= 4
    requires forall i :: 0 <= i < 4 ==> o(i).SelectFails?
    ensures Select(o, fuel) == SelectRun(Returned(None), 4, 4)
  {
    assert SelectLoop(o, -1, 4, fuel - 4) == SelectRun(Returned(None), 4, 0);
    assert o(3).SelectFails?;
    assert SelectLoop(o, 0, 3, fuel - 3) == SelectRun(Returned(None), 4, 1);
    assert o(2).SelectFails?;
    assert SelectLoop(o, 1, 2, fuel - 2) == SelectRun(Returned(None), 4, 2);
    assert o(1).SelectFails?;
    assert SelectLoop(o, 2, 1, fuel - 1) == SelectRun(Returned(None), 4, 3);
    assert o(0).SelectFails?;
  }
}

=== FILE: paging.dfy ===
/** The paging and sorting helpers the `games` and `alcohol` routers both
    define, character for character alike: page validation, the offset of
    a page, and the `LIMIT`/`OFFSET` suffix. */
module Paging {
  import opened Wrappers
  import Http

  const PageMessage := "Page must be a positive integers greater than or equal to 1"
  const PageSizeMessage := "Page size must be a positive integer greater than 0"

  /** What `add_limit_and_offset` appends, newline and indentation included. */
  const LimitSuffix := " LIMIT %(limit)s \n    OFFSET %(offset)s"

  /** One `ORDER BY` term: a column and `asc` or `desc`. */
  datatype SortKey = SortKey(field: string, order: string)

  /** `add_limit_and_offset(query)`: the query, unchanged, followed by the
      placeholders. */
  function AddLimitAndOffset(query: string): (r: string)
    ensures |r| == |query| + |LimitSuffix|
    ensures r[..|query|] == query && r[|query|..] == LimitSuffix
  {
    query + LimitSuffix
  }

  /** `check_page_and_offset_values(page, pageSize)`: the page is checked
      first. */
  function CheckPage(page: int, pageSize: int): (r: Option<Http.HttpError>)
    ensures r.None? <==> page >= 1 && pageSize >= 1
    ensures page < 1 ==> r == Some(Http.HttpError(400, PageMessage))
    ensures page >= 1 && pageSize < 1 ==> r == Some(Http.HttpError(400, PageSizeMessage))
  {
    if page < 1 then Some(Http.HttpError(400, PageMessage))
    else if pageSize < 1 then Some(Http.HttpError(400, PageSizeMessage))
    else None
  }

  /** `(page - 1) * pageSize`. */
  function Offset(page: int, pageSize: int): int
  {
    (page - 1) * pageSize
  }

  /** Row `i` of a result lies on page `page`. */
  predicate OnPage(i: int, page: int, pageSize: int)
  {
    Offset(page, pageSize) <= i < Offset(page, pageSize) + pageSize
  }

  /** Pages that pass the check start at a non-negative offset, and each
      page starts where the previous one ends. */
  lemma ValidPagesAdjacent(page: int, pageSize: int)
    requires CheckPage(page, pageSize).None?
    ensures Offset(page, pageSize) >= 0
    ensures Offset(page + 1, pageSize) == Offset(page, pageSize) + pageSize
  {
  }

  /** Every row lies on exactly one valid page: the windows of the pages
      are disjoint and cover the result. */
  lemma {:induction false} EveryRowOnOnePage(i: nat, page: int, pageSize: int)
    requires CheckPage(page, pageSize).None?
    ensures OnPage(i, page, pageSize) <==> page == i / pageSize + 1
  {
    var q := i / pageSize;
    assert q * pageSize <= i < q * pageSize + pageSize;
    if OnPage(i, page, pageSize) {
      if page - 1 < q {
        assert (page - 1) * pageSize + pageSize == page * pageSize;
        assert page * pageSize <= q * pageSize by {
          MultiplyMonotone(page, q, pageSize);
        }
      } else if page - 1 > q {
        MultiplyMonotone(q + 1, page - 1, pageSize);
      }
    }
  }

  lemma MultiplyMonotone(a: int, b: int, k: nat)
    requires a <= b
    ensures a * k <= b * k
  {
  }

  datatype Listing = Listing(query: string, limit: int, offset: int)

  datatype ListingError = BadPage(error: Http.HttpError) | UnknownSort

  /** The body the listing endpoints share: validate the page, then take
      the sorted query (None where `simple_sort` raises), then add paging.
      The page is validated before the sort is looked at. */
  function BuildListing(page: int, pageSize: int, sorted: Option<string>): (r: Result<Listing, ListingError>)
    ensures CheckPage(page, pageSize).Some? ==> r == Err(BadPage(CheckPage(page, pageSize).value))
    ensures CheckPage(page, pageSize).None? && sorted.None? ==> r == Err(UnknownSort)
    ensures r.Ok? ==> r.value.limit == pageSize && r.value.limit >= 1 && r.value.offset >= 0
                      && r.value.offset == Offset(page, pageSize)
                      && r.value.query == AddLimitAndOffset(sorted.value)
  {
    if CheckPage(page, pageSize).Some? then Err(BadPage(CheckPage(page, pageSize).value))
    else if sorted.None? then Err(UnknownSort)
    else Ok(Listing(AddLimitAndOffset(sorted.value), pageSize, Offset(page, pageSize)))
  }
}

=== FILE: pgsql.dfy ===
/** The PostgreSQL connector of `connectors/pgsql.py`: a once-only pool,
    a resource release that swallows its own errors, and the two retry
    loops. What the driver does on each pass of a loop is an oracle `o`:
    `o(i)` is what the i-th pass (counting from 0) meets. */
module PgSql {
  import opened Wrappers
  import Text

  /** `self._retries`: the loops run while the budget is still >= 0. */
  const Retries: int := 3

  /** An exception escapes to the caller. */
  datatype Raised = Raised

  /** `nullify`: maps None to None and every other value to itself. */
  function Nullify<T>(v: Option<T>): (r: Option<T>)
    ensures r == v
  {
    if v.Some? then v else None
  }

  /** The pool: created once, from the connection limit of the settings. */
  datatype Pool = Pool(minConn: nat, maxConn: nat)

  /** `connect(settings)`: a no-op when a pool exists; otherwise builds
      `SimpleConnectionPool(1, limit)` or raises when that fails. */
  function Connect(pool: Option<Pool>, limit: nat, creationFails: bool): (r: Result<Option<Pool>, Raised>)
    ensures pool.Some? ==> r == Ok(pool)
    ensures pool.None? ==> (r.Err? <==> creationFails)
    ensures r.Ok? ==> r.value.Some?
    ensures pool.None? && r.Ok? ==> r.value == Some(Pool(1, limit))
  {
    if pool.Some? then Ok(pool)
    else if creationFails then Err(Raised)
    else Ok(Some(Pool(1, limit)))
  }

  /** Connecting twice is connecting once. */
  lemma ConnectIdempotent(pool: Option<Pool>, limit: nat, limit2: nat, fails: bool, fails2: bool)
    requires Connect(pool, limit, fails).Ok?
    ensures Connect(Connect(pool, limit, fails).value, limit2, fails2) == Connect(pool, limit, fails)
  {
  }

  /** Connections of the pool: idle ones and ones handed out by `getconn`. */
  datatype Connections = Connections(idle: set<nat>, inUse: set<nat>)

  /** `release_resources(conn, cursor)`: closes the cursor, then gives the
      connection back with `putconn`. Every error is logged and swallowed: a
      failing `cursor.close()` skips the `putconn`, and `putconn` of a
      connection the pool did not hand out raises and changes nothing. */
  function Release(p: Connections, conn: Option<nat>, cursorCloseFails: bool): (r: Connections)
    ensures r.idle + r.inUse == p.idle + p.inUse
    ensures conn.Some? && conn.value in p.inUse && !cursorCloseFails ==>
              conn.value !in r.inUse && conn.value in r.idle
    ensures forall c :: c in p.inUse && Some(c) != conn ==> c in r.inUse
    ensures r.inUse <= p.inUse
  {
    if cursorCloseFails then p
    else if conn.Some? && conn.value in p.inUse then
      Connections(p.idle + {conn.value}, p.inUse - {conn.value})
    else p
  }

  /** Releasing the same connection a second time has no effect. */
  lemma ReleaseTwice(p: Connections, conn: Option<nat>, secondCloseFails: bool)
    ensures Release(Release(p, conn, false), conn, secondCloseFails) == Release(p, conn, false)
  {
  }

  /** `"insert into" in query.lower()`. */
  predicate IsInsert(query: string)
  {
    Text.Contains(Text.Lower(query), "insert into")
  }

  /** What one pass of the loop in `execute` meets. */
  datatype ExecAttempt =
    | CheckoutFails                    // getconn()/cursor() raise DatabaseError
    | CheckoutCrashes                  // getconn()/cursor() raise anything else
    | StatementFails                   // cursor.execute() or commit() raise
    | Committed(fetched: Option<int>)  // committed; first column of fetchone(), None if no row

  /** The pass ends the loop: it returns a value or lets an exception out. */
  predicate ExecFinal(a: ExecAttempt, insert: bool)
  {
    a.CheckoutCrashes? || (a.Committed? && (!insert || a.fetched.Some?))
  }

  /** Budget units a pass that does not end the loop costs: a failed checkout
      is charged in its own handler and again when the statement then fails
      on the missing cursor; an insert whose row cannot be fetched fails
      after its commit. */
  function ExecCost(a: ExecAttempt): nat
  {
    match a
    case CheckoutFails => 2
    case CheckoutCrashes => 0
    case StatementFails => 1
    case Committed(_) => 1
  }

  /** Budget spent by passes `from .. to-1`. */
  function Spent(o: nat -> ExecAttempt, from: nat, to: nat): nat
    decreases to - from
  {
    if to <= from then 0 else ExecCost(o(from)) + Spent(o, from + 1, to)
  }

  /** Number of passes `from .. to-1` that committed. */
  function Commits(o: nat -> ExecAttempt, from: nat, to: nat): nat
    decreases to - from
  {
    if to <= from then 0 else (if o(from).Committed? then 1 else 0) + Commits(o, from + 1, to)
  }

  datatype ExecRun = ExecRun(result: Result<Option<int>, Raised>, attempts: nat, commits: nat)

  /** The `while available_calls >= 0` loop of `execute`, from pass `k` with
      `budget` left. It stops at the first pass that returns or raises, or
      once the budget is below zero, and then returns None. */
  function ExecuteLoop(o: nat -> ExecAttempt, insert: bool, budget: int, k: nat): (r: ExecRun)
    ensures k <= r.attempts <= k + (if budget < 0 then 0 else budget + 1)
    ensures forall i :: k <= i < r.attempts - 1 ==> !ExecFinal(o(i), insert)
    ensures r.attempts > k ==> Spent(o, k, r.attempts - 1) <= budget
    ensures r.attempts > k && ExecFinal(o(r.attempts - 1), insert) ==>
              r.result == (if o(r.attempts - 1).CheckoutCrashes? then Err(Raised)
                           else if insert then Ok(o(r.attempts - 1).fetched) else Ok(None))
    ensures r.attempts == k || !ExecFinal(o(r.attempts - 1), insert) ==>
              r.result == Ok(None) && Spent(o, k, r.attempts) > budget
    ensures r.commits == Commits(o, k, r.attempts)
    decreases if budget < 0 then 0 else budget + 1
  {
    if budget < 0 then ExecRun(Ok(None), k, 0)
    else
      var a := o(k);
      if ExecFinal(a, insert) then
        ExecRun(if a.CheckoutCrashes? then Err(Raised) else if insert then Ok(a.fetched) else Ok(None),
                k + 1, if a.Committed? then 1 else 0)
      else
        var rest := ExecuteLoop(o, insert, budget - ExecCost(a), k + 1);
        ExecRun(rest.result, rest.attempts, rest.commits + (if a.Committed? then 1 else 0))
  }

  /** `execute(query, args)`. */
  function Execute(query: string, o: nat -> ExecAttempt): (r: ExecRun)
    ensures 1 <= r.attempts <= 4
    ensures r.result.Ok? && r.result.value.Some? ==> IsInsert(query)
  {
    ExecuteLoop(o, IsInsert(query), Retries, 0)
  }

  /** How one INSERT through `execute` ends for the handler that issued it:
      a row and its id, None with no row, or an exception that escapes
      `execute` (a checkout error other than `DatabaseError`). */
  datatype InsertOutcome = RowWritten | NoRowId | InsertRaises

  /** Two failed checkouts exhaust the budget of 3: the call returns None
      after two passes without committing anything. */
  lemma TwoCheckoutFailuresExhaust(query: string, o: nat -> ExecAttempt)
    requires o(0) == CheckoutFails && o(1) == CheckoutFails
    ensures Execute(query, o) == ExecRun(Ok(None), 2, 0)
  {
  }

  /** Statement failures alone give exactly four passes and then None. */
  lemma FourStatementFailures(query: string, o: nat -> ExecAttempt)
    requires forall i :: o(i) == StatementFails
    ensures Execute(query, o) == ExecRun(Ok(None), 4, 0)
  {
  }

  /** An insert whose returned row cannot be fetched has committed, and the
      loop runs the statement again: one call can commit the same insert up
      to four times. */
  lemma InsertCommittedRepeatedly(query: string, o: nat -> ExecAttempt)
    requires IsInsert(query)
    requires forall i :: o(i) == Committed(None)
    ensures Execute(query, o) == ExecRun(Ok(None), 4, 4)
  {
  }

  /** What one pass of the loop in `select_dataframe` meets. */
  datatype SelectAttempt<T> = Rows(data: T) | SelectFails | SelectCrashes

  datatype SelectRun<T> = SelectRun(result: Result<Option<T>, Raised>, attempts: nat)

  /** The loop of `select_dataframe`: only `DatabaseError` is retried (one
      unit each); anything else propagates; exhaustion returns None. */
  function SelectLoop<T>(o: nat -> SelectAttempt<T>, budget: int, k: nat): (r: SelectRun<T>)
    ensures k <= r.attempts <= k + (if budget < 0 then 0 else budget + 1)
    ensures forall i :: k <= i < r.attempts - 1 ==> o(i).SelectFails?
    ensures r.attempts > k && o(r.attempts - 1).Rows? ==> r.result == Ok(Some(o(r.attempts - 1).data))
    ensures r.attempts > k && o(r.attempts - 1).SelectCrashes? ==> r.result == Err(Raised)
    ensures r.attempts == k || o(r.attempts - 1).SelectFails? ==>
              r.result == Ok(None) && r.attempts - k == (if budget < 0 then 0 else budget + 1)
    decreases if budget < 0 then 0 else budget + 1
  {
    if budget < 0 then SelectRun(Ok(None), k)
    else
      match o(k)
      case Rows(data) => SelectRun(Ok(Some(data)), k + 1)
      case SelectCrashes => SelectRun(Err(Raised), k + 1)
      case SelectFails => SelectLoop(o, budget - 1, k + 1)
  }

  /** `select_dataframe(query, args)`: at most four passes. */
  function Select<T>(o: nat -> SelectAttempt<T>): (r: SelectRun<T>)
    ensures 1 <= r.attempts <= 4
    ensures r.result == Ok(None) <==> (forall i :: 0 <= i < 4 ==> o(i).SelectFails?)
  {
    SelectLoop(o, Retries, 0)
  }
}

=== FILE: process_ctf_action.dfy ===
/** `utilities/process_ctf_action.py`: the pipeline every CTF endpoint runs
    (log the event, find the badge's owner, test and insert the unlock,
    announce it) and the rate-limited broadcast of a random fact. */
module ProcessCtfAction {
  import opened Wrappers
  import Text
  import Cache
  import PubSub
  import Users
  import Events
  import Achievements
  import opened Backend

  /** What `get_fact()` meets: the HTTP request itself raises, the body is
      not JSON (logged, None returned), or a JSON object with or without a
      "text" member. */
  datatype FactFetch = Unreachable(reason: string) | NotJson | FactJson(text: Option<string>)

  /** Everything outside the model a request depends on. */
  datatype Oracles = Oracles(failing: set<DbCall>, staffDraw: nat, fact: FactFetch)

  datatype Status = Success | Error

  datatype Reply = Reply(status: Status, message: string)

  const LastSentFactKey := "last_sent_fact"

  /** The `ex=60` of the rate limiter. */
  const FactTtl: nat := 60

  /** Text of the `AttributeError` Python raises on an attribute of None. */
  function NoneAttribute(name: string): string
  {
    "'NoneType' object has no attribute '" + name + "'"
  }

  function DefaultMessage(a: Achievements.Achievement): string
  {
    "Someone unlocked achievement: \"" + a.name + "\" but we don't know who... they should register their badge!"
  }

  function NotRegisteredMessage(uuid: string, mac: string): string
  {
    "User device is not registered: User with badge: " + uuid + " | " + mac
    + " does not exist. They probably haven't registered yet."
  }

  function UnknownErrorMessage(detail: string): string
  {
    "Some unknown bullshit happened: " + detail
  }

  /** The name announced for an achievement already held: the access point
      stays secret. */
  function ShownName(a: Achievements.Achievement): string
  {
    if a.name == "Badge Access Point" then "[REDACTED]" else a.name
  }

  function AlreadyUnlockedMessage(handle: string, a: Achievements.Achievement): string
  {
    handle + " has already unlocked: " + ShownName(a)
  }

  function UnlockedMessage(handle: string, a: Achievements.Achievement): string
  {
    handle + " unlocked: " + a.name + " for " + Text.NatToString(a.points) + " points!"
  }

  /** Every message published after the first `n` is a fact. */
  predicate OnlyFactsAfter(log: seq<PubSub.Message>, n: nat)
  {
    forall i :: n <= i < |log| ==> log[i].channel == PubSub.FactChannel
  }

  /** `send_fact_to(db)`: draws a staff member, fetches a fact, and, when no
      fact was sent in the last minute, records the fact under
      `last_sent_fact` for 60 seconds and publishes it on `fact`. The second
      component is the text of an exception that escapes. */
  function SendFact(w: World, o: Oracles): (r: (World, Option<string>))
    ensures r.0.db == w.db && r.0.clock == w.clock
    ensures forall k :: k != LastSentFactKey ==> (k in r.0.cache <==> k in w.cache)
                                                 && (k in w.cache ==> r.0.cache[k] == w.cache[k])
    ensures Cache.Live(w.cache, LastSentFactKey, w.clock) ==> r.0 == w
    ensures |w.published| <= |r.0.published| <= |w.published| + 1 && r.0.published[..|w.published|] == w.published
    ensures OnlyFactsAfter(r.0.published, |w.published|)
    ensures |r.0.published| > |w.published| <==>
              !Cache.Live(w.cache, LastSentFactKey, w.clock) && o.fact.FactJson?
              && Achievements.GetRandomStaffMember(w.db.staff, StaffLookup in o.failing, o.staffDraw).Some?
    ensures r.0.cache != w.cache ==>
              LastSentFactKey in r.0.cache && r.0.cache[LastSentFactKey].expiresAt == w.clock + FactTtl
    ensures |r.0.published| > |w.published| ==>
              LastSentFactKey in r.0.cache && r.0.cache[LastSentFactKey].expiresAt == w.clock + FactTtl
              && r.0.published[|w.published|].payload.Fact?
              && r.0.published[|w.published|].payload.fact == r.0.cache[LastSentFactKey].value
    ensures |r.0.published| > |w.published| ==> r.1.None?
    ensures o.fact.Unreachable? ==> r == (w, Some(o.fact.reason))
  {
    var staff := Achievements.GetRandomStaffMember(w.db.staff, StaffLookup in o.failing, o.staffDraw);
    if o.fact.Unreachable? then (w, Some(o.fact.reason))
    else if Cache.Live(w.cache, LastSentFactKey, w.clock) then (w, None)
    else if o.fact.NotJson? then (w, Some(NoneAttribute("get")))
    else
      var text := if o.fact.text.Some? then o.fact.text.value else "OOPS";
      var w1 := w.(cache := Cache.Set(w.cache, LastSentFactKey, text, FactTtl, w.clock));
      match staff
      case None => (w1, Some(NoneAttribute("discord_handle")))
      case Some(s) =>
        (w1.(published := PubSub.Publish(w.published, PubSub.FactChannel,
                                         PubSub.Fact(text, s.discordHandle, s.discordUserId))), None)
  }

  /** Once a fact has gone out, no other is sent while its entry is live:
      whatever the oracles, and whatever else has changed in the store. */
  lemma FactRateLimit(w: World, o: Oracles, later: World, o2: Oracles)
    requires |SendFact(w, o).0.published| > |w.published|
    requires LastSentFactKey in later.cache
    requires later.cache[LastSentFactKey] == SendFact(w, o).0.cache[LastSentFactKey]
    requires w.clock <= later.clock < w.clock + FactTtl
    ensures SendFact(later, o2).0.published == later.published
  {
  }

  /** The announcement of an unlock, or of an unlock already held; returns
      the message of the reply. */
  function Announce(w: World, o: Oracles, user: Users.User, a: Achievements.Achievement, alreadyHeld: bool)
    : (r: (World, string))
  {
    if alreadyHeld then
      var m := AlreadyUnlockedMessage(user.discordHandle, a);
      (w.(published := PubSub.Publish(w.published, PubSub.CommunityChannel, PubSub.Text(m))), m)
    else
      var (t, _) := Achievements.InsertUserAchievement(w.db.unlocks, user.id, a.id, UnlockInsert in o.failing);
      (w.(db := w.db.(unlocks := t),
          published := PubSub.Publish(w.published, PubSub.AchievementChannel,
                                      PubSub.AchievementUnlocked(user.discordHandle, a.name, a.description, a.points))),
       UnlockedMessage(user.discordHandle, a))
  }

  /** `ctf_action(db, uuid, mac_address, event_id, achievement)`. */
  function CtfAction(w: World, o: Oracles, uuid: Option<string>, mac: Option<string>, eventId: int,
                     a: Achievements.Achievement): (r: (World, Reply))
    ensures uuid.None? || mac.None? ==> r == (w, Reply(Success, DefaultMessage(a)))
    ensures uuid.Some? && mac.Some? ==>
              r.0.db.events == Events.LogEvent(w.db.events, Some(eventId), uuid, mac, LogEventCall in o.failing).0
    ensures r.0.db.users == w.db.users && r.0.db.achievements == w.db.achievements
            && r.0.db.staff == w.db.staff && r.0.clock == w.clock
    ensures |w.published| <= |r.0.published| <= |w.published| + 2 && r.0.published[..|w.published|] == w.published
  {
    if uuid.None? || mac.None? then (w, Reply(Success, DefaultMessage(a)))
    else
      var (events, _) := Events.LogEvent(w.db.events, Some(eventId), uuid, mac, LogEventCall in o.failing);
      var w1 := w.(db := w.db.(events := events));
      match Users.GetUserByDevice(w.db.users, uuid.value, mac.value, UserLookup in o.failing)
      case None => (w1, Reply(Error, NotRegisteredMessage(uuid.value, mac.value)))
      case Some(user) =>
        match Achievements.GetAchievementView(w.db.achievements, w.db.unlocks.rows, user.id, a.id,
                                              AchievementLookup in o.failing)
        case None => (w1, Reply(Error, UnknownErrorMessage(NoneAttribute("user_has_achievement"))))
        case Some(view) =>
          var (w2, message) := Announce(w1, o, user, a, view.userHasAchievement == 1);
          var (w3, failure) := SendFact(w2, o);
          if failure.Some? then (w3, Reply(Error, UnknownErrorMessage(failure.value)))
          else (w3, Reply(Success, message))
  }

  /** Both ids present and no registered owner (or a failing lookup): the
      event is logged, the reply is an error naming the device, and nothing
      is inserted, cached or published. */
  lemma CtfActionUnregistered(w: World, o: Oracles, uuid: string, mac: string, eventId: int,
                              a: Achievements.Achievement)
    requires UserLookup in o.failing
             || forall i :: 0 <= i < |w.db.users| ==> !Users.OwnsDevice(w.db.users[i], uuid, mac)
    ensures var r := CtfAction(w, o, Some(uuid), Some(mac), eventId, a);
            r.1 == Reply(Error, NotRegisteredMessage(uuid, mac))
            && r.0.db.unlocks == w.db.unlocks && r.0.cache == w.cache && r.0.published == w.published
  {
  }

  /** The owner exists but the achievement row does not (or its lookup
      fails): an error, and only the event is stored. */
  lemma CtfActionMissingAchievement(w: World, o: Oracles, uuid: string, mac: string, eventId: int,
                                    a: Achievements.Achievement, user: Users.User)
    requires Users.GetUserByDevice(w.db.users, uuid, mac, UserLookup in o.failing) == Some(user)
    requires AchievementLookup in o.failing
             || forall i :: 0 <= i < |w.db.achievements| ==> w.db.achievements[i].id != a.id
    ensures var r := CtfAction(w, o, Some(uuid), Some(mac), eventId, a);
            r.1 == Reply(Error, UnknownErrorMessage(NoneAttribute("user_has_achievement")))
            && r.0.db.unlocks == w.db.unlocks && r.0.cache == w.cache && r.0.published == w.published
  {
  }

  /** An achievement the owner already holds: no new row, exactly one
      community message, then at most a fact. */
  lemma CtfActionAlreadyUnlocked(w: World, o: Oracles, uuid: string, mac: string, eventId: int,
                                 a: Achievements.Achievement, user: Users.User)
    requires Users.GetUserByDevice(w.db.users, uuid, mac, UserLookup in o.failing) == Some(user)
    requires AchievementLookup !in o.failing
    requires exists i :: 0 <= i < |w.db.achievements| && w.db.achievements[i].id == a.id
    requires Achievements.HasUnlock(w.db.unlocks.rows, user.id, a.id)
    ensures var r := CtfAction(w, o, Some(uuid), Some(mac), eventId, a);
            r.0.db.unlocks == w.db.unlocks
            && |r.0.published| > |w.published|
            && r.0.published[|w.published|]
               == PubSub.Message(PubSub.CommunityChannel, PubSub.Text(AlreadyUnlockedMessage(user.discordHandle, a)))
            && OnlyFactsAfter(r.0.published, |w.published| + 1)
            && (r.1.status == Success ==> r.1.message == AlreadyUnlockedMessage(user.discordHandle, a))
            && (o.fact.Unreachable? ==> r.1 == Reply(Error, UnknownErrorMessage(o.fact.reason)))
  {
  }

  /** A first unlock: one row for the pair is inserted (unless the insert
      raises), one achievement announcement carries the catalogue entry, and
      the row stays even when the fact broadcast then fails. */
  lemma CtfActionFirstUnlock(w: World, o: Oracles, uuid: string, mac: string, eventId: int,
                             a: Achievements.Achievement, user: Users.User)
    requires Users.GetUserByDevice(w.db.users, uuid, mac, UserLookup in o.failing) == Some(user)
    requires AchievementLookup !in o.failing
    requires exists i :: 0 <= i < |w.db.achievements| && w.db.achievements[i].id == a.id
    requires !Achievements.HasUnlock(w.db.unlocks.rows, user.id, a.id)
    ensures var r := CtfAction(w, o, Some(uuid), Some(mac), eventId, a);
            r.0.db.unlocks == Achievements.InsertUserAchievement(w.db.unlocks, user.id, a.id, UnlockInsert in o.failing).0
            && (UnlockInsert !in o.failing ==> Achievements.CountUnlocks(r.0.db.unlocks.rows, user.id, a.id) == 1)
            && |r.0.published| > |w.published|
            && r.0.published[|w.published|]
               == PubSub.Message(PubSub.AchievementChannel,
                                 PubSub.AchievementUnlocked(user.discordHandle, a.name, a.description, a.points))
            && OnlyFactsAfter(r.0.published, |w.published| + 1)
            && (r.1.status == Success ==> r.1.message == UnlockedMessage(user.discordHandle, a))
            && (o.fact.Unreachable? ==> r.1 == Reply(Error, UnknownErrorMessage(o.fact.reason)))
  {
    Achievements.HasUnlockIffCounted(w.db.unlocks.rows, user.id, a.id);
  }

  /** One call never records a pair a second time: the test before the
      insert sees every earlier row. */
  lemma CtfActionKeepsPairAtMostOnce(w: World, o: Oracles, uuid: Option<string>, mac: Option<string>,
                                     eventId: int, a: Achievements.Achievement, u: int, aid: int)
    requires Achievements.CountUnlocks(w.db.unlocks.rows, u, aid) <= 1
    ensures Achievements.CountUnlocks(CtfAction(w, o, uuid, mac, eventId, a).0.db.unlocks.rows, u, aid) <= 1
  {
    if uuid.Some? && mac.Some? {
      var user := Users.GetUserByDevice(w.db.users, uuid.value, mac.value, UserLookup in o.failing);
      if user.Some? {
        Achievements.HasUnlockIffCounted(w.db.unlocks.rows, user.value.id, a.id);
      }
    }
  }

  /** While `last_sent_fact` is live the call leaves the store as it was and
      publishes no fact. */
  lemma CtfActionWhileFactLive(w: World, o: Oracles, uuid: Option<string>, mac: Option<string>,
                               eventId: int, a: Achievements.Achievement)
    requires Cache.Live(w.cache, LastSentFactKey, w.clock)
    ensures var r := CtfAction(w, o, uuid, mac, eventId, a);
            r.0.cache == w.cache
            && forall i :: |w.published| <= i < |r.0.published| ==> r.0.published[i].channel != PubSub.FactChannel
  {
  }

  /** One request to a CTF endpoint, at a given time. */
  datatype Call = Call(at: nat, o: Oracles, uuid: Option<string>, mac: Option<string>, eventId: int,
                       achievement: Achievements.Achievement)

  /** Requests handled one after another. */
  function Run(w: World, calls: seq<Call>): (r: World)
    ensures |r.published| >= |w.published| && r.published[..|w.published|] == w.published
    decreases |calls|
  {
    if |calls| == 0 then w
    else
      var c := calls[0];
      Run(CtfAction(w.(clock := c.at), c.o, c.uuid, c.mac, c.eventId, c.achievement).0, calls[1..])
  }

  /** Sequential requests, whatever they are, leave at most one row per
      (user, achievement) pair. */
  lemma {:induction false} RunKeepsPairAtMostOnce(w: World, calls: seq<Call>, u: int, aid: int)
    requires Achievements.CountUnlocks(w.db.unlocks.rows, u, aid) <= 1
    ensures Achievements.CountUnlocks(Run(w, calls).db.unlocks.rows, u, aid) <= 1
    decreases |calls|
  {
    if |calls| > 0 {
      var c := calls[0];
      var w0 := w.(clock := c.at);
      CtfActionKeepsPairAtMostOnce(w0, c.o, c.uuid, c.mac, c.eventId, c.achievement, u, aid);
      RunKeepsPairAtMostOnce(CtfAction(w0, c.o, c.uuid, c.mac, c.eventId, c.achievement).0, calls[1..], u, aid);
    }
  }

  lemma RunKeepsUnlocksUnique(w: World, calls: seq<Call>)
    requires UnlocksUnique(w.db)
    ensures UnlocksUnique(Run(w, calls).db)
  {
    forall u, aid
      ensures Achievements.CountUnlocks(Run(w, calls).db.unlocks.rows, u, aid) <= 1
    {
      RunKeepsPairAtMostOnce(w, calls, u, aid);
    }
  }

  /** Requests arriving before the recorded fact expires publish no fact
      and keep the record: at most one fact per 60-second window. */
  lemma {:induction false} RunSendsNoFactWhileLive(w: World, calls: seq<Call>)
    requires LastSentFactKey in w.cache
    requires forall i :: 0 <= i < |calls| ==> calls[i].at < w.cache[LastSentFactKey].expiresAt
    ensures Run(w, calls).cache == w.cache
    ensures |Run(w, calls).published| >= |w.published|
    ensures forall i :: |w.published| <= i < |Run(w, calls).published| ==>
              Run(w, calls).published[i].channel != PubSub.FactChannel
    decreases |calls|
  {
    if |calls| > 0 {
      var c := calls[0];
      var w0 := w.(clock := c.at);
      CtfActionWhileFactLive(w0, c.o, c.uuid, c.mac, c.eventId, c.achievement);
      var w1 := CtfAction(w0, c.o, c.uuid, c.mac, c.eventId, c.achievement).0;
      assert forall i :: 0 <= i < |calls[1..]| ==> calls[1..][i].at == calls[i + 1].at;
      RunSendsNoFactWhileLive(w1, calls[1..]);
      var r := Run(w1, calls[1..]);
      assert Run(w, calls) == r;
      forall i | |w.published| <= i < |r.published|
        ensures r.published[i].channel != PubSub.FactChannel
      {
        if i < |w1.published| {
          assert r.published[i] == r.published[..|w1.published|][i] == w1.published[i];
        }
      }
    }
  }
}

=== FILE: pubsub.dfy ===
/** Redis PUBLISH as the services use it: every call appends one message on
    a named channel to the log of everything published. Payloads are the
    JSON documents (or plain texts) the source builds, as structured values. */
module PubSub {
  import opened Wrappers

  /** What the badge reports through `/badge/verify`. */
  datatype BadgeReport = NoReport | HighScores(scores: string) | Status(status: string)

  datatype Payload =
    | Text(text: string)
    | AchievementUnlocked(handle: string, name: string, description: string, points: nat)
    | Fact(fact: string, discordHandle: string, discordUserId: string)
    | BadgeUpdate(userUuid: string, macAddress: string, report: BadgeReport)
    | AroundTheWorld(userUuid: string, macAddress: string)
    | ChallengeCheck(userUuid: string, macAddress: string, scoreId: Option<int>)

  datatype Message = Message(channel: string, payload: Payload)

  const CommunityChannel := "community-message"
  const AchievementChannel := "achievement"
  const FactChannel := "fact"
  const HighScoreChannel := "high-score-processor"

  function Publish(log: seq<Message>, channel: string, payload: Payload): (r: seq<Message>)
    ensures |r| == |log| + 1 && r[..|log|] == log
    ensures r[|log|] == Message(channel, payload)
  {
    log + [Message(channel, payload)]
  }
}

=== FILE: text.dfy ===
/** String helpers with Python's semantics: `str.split(sep)`, `sub in s`,
    ASCII `str.lower()`, decimal rendering of numbers. */
module Text {
  import opened Wrappers

  /** Python truthiness of an optional string: present and non-empty. */
  predicate Truthy(v: Option<string>)
  {
    v.Some? && v.value != ""
  }

  /** `sub` occurs in `s` starting at index `i`. */
  predicate OccursAt(s: string, sub: string, i: nat)
  {
    i + |sub| <= |s| && s[i..i + |sub|] == sub
  }

  /** Python's `sub in s`. */
  predicate Contains(s: string, sub: string)
  {
    exists i: nat | i <= |s| :: OccursAt(s, sub, i)
  }

  /** Python's `str.lower()` restricted to ASCII letters. */
  function LowerChar(c: char): (r: char)
    ensures 'A' <= c <= 'Z' ==> 'a' <= r <= 'z'
    ensures !('A' <= c <= 'Z') ==> r == c
  {
    if 'A' <= c <= 'Z' then (c as int - 'A' as int + 'a' as int) as char else c
  }

  function Lower(s: string): (r: string)
    ensures |r| == |s|
    ensures forall i :: 0 <= i < |s| ==> r[i] == LowerChar(s[i])
  {
    seq(|s|, i requires 0 <= i < |s| => LowerChar(s[i]))
  }

  /** Python's `s.split(sep)` for a one-character separator: always at least
      one part, empty parts kept. */
  function Split(s: string, sep: char): (parts: seq<string>)
    ensures |parts| >= 1
    decreases |s|
  {
    if |s| == 0 then [""]
    else if s[0] == sep then [""] + Split(s[1..], sep)
    else
      var rest := Split(s[1..], sep);
      [[s[0]] + rest[0]] + rest[1..]
  }

  /** Python's `sep.join(parts)`. */
  function Join(parts: seq<string>, sep: string): string
  {
    if |parts| == 0 then ""
    else if |parts| == 1 then parts[0]
    else parts[0] + sep + Join(parts[1..], sep)
  }

  /** A string without the separator is a single part. */
  lemma {:induction false} SplitWithoutSeparator(s: string, sep: char)
    requires sep !in s
    ensures Split(s, sep) == [s]
    decreases |s|
  {
    if |s| > 0 {
      SplitWithoutSeparator(s[1..], sep);
      assert [s[0]] + s[1..] == s;
    }
  }

  /** Splitting at the first separator: a separator-free head is the first part. */
  lemma {:induction false} SplitAfterHead(head: string, sep: char, tail: string)
    requires sep !in head
    ensures Split(head + [sep] + tail, sep) == [head] + Split(tail, sep)
    decreases |head|
  {
    if |head| == 0 {
      assert head + [sep] + tail == [sep] + tail;
      assert ([sep] + tail)[1..] == tail;
    } else {
      var s := head + [sep] + tail;
      assert s[0] == head[0];
      assert s[1..] == head[1..] + [sep] + tail;
      SplitAfterHead(head[1..], sep, tail);
      assert [head[0]] + head[1..] == head;
    }
  }

  /** Joining `a` and `b` with a separator that occurs in neither, then
      splitting, gives back exactly the two parts. */
  lemma SplitPair(a: string, sep: char, b: string)
    requires sep !in a && sep !in b
    ensures Split(a + [sep] + b, sep) == [a, b]
  {
    SplitAfterHead(a, sep, b);
    SplitWithoutSeparator(b, sep);
  }

  /** Splitting then joining with the same separator restores the string. */
  lemma {:induction false} JoinSplit(s: string, sep: char)
    ensures Join(Split(s, sep), [sep]) == s
    decreases |s|
  {
    if |s| > 0 {
      JoinSplit(s[1..], sep);
      var rest := Split(s[1..], sep);
      if s[0] == sep {
        assert Split(s, sep) == [""] + rest;
        assert ([""] + rest)[1..] == rest;
      } else {
        assert Split(s, sep) == [[s[0]] + rest[0]] + rest[1..];
        if |rest| == 1 {
          assert Join(rest, [sep]) == rest[0];
        } else {
          assert Join(rest, [sep]) == rest[0] + [sep] + Join(rest[1..], [sep]);
          assert ([[s[0]] + rest[0]] + rest[1..])[1..] == rest[1..];
        }
      }
    }
  }

  predicate IsDigit(c: char)
  {
    '0' <= c <= '9'
  }

  predicate IsLowerHexChar(c: char)
  {
    IsDigit(c) || 'a' <= c <= 'f'
  }

  /** Every character is one of `0-9a-f`, the alphabet of `hexdigest()`. */
  predicate IsLowerHex(s: string)
  {
    forall i :: 0 <= i < |s| ==> IsLowerHexChar(s[i])
  }

  function DigitChar(d: nat): (c: char)
    requires d < 10
    ensures IsDigit(c)
  {
    ('0' as int + d) as char
  }

  /** Python's `str(n)` for a non-negative integer. */
  function NatToString(n: nat): (r: string)
    ensures |r| >= 1
    ensures forall i :: 0 <= i < |r| ==> IsDigit(r[i])
    decreases n
  {
    if n < 10 then [DigitChar(n)] else NatToString(n / 10) + [DigitChar(n % 10)]
  }

  /** Python's `str(n)` for any integer. */
  function IntToString(n: int): (r: string)
    ensures |r| >= 1
  {
    if n < 0 then "-" + NatToString(-n) else NatToString(n)
  }
}

=== FILE: users.dfy ===
/** `utilities/users.py`: the registered users and the lookup of a badge's
    owner by its composite identity (uuid, MAC address). */
module Users {
  import opened Wrappers

  datatype User = User(
    id: int,
    firstName: string,
    lastName: string,
    discordHandle: string,
    discordUserId: string,
    uuid: string,
    macAddress: string)

  /** The WHERE clause: both parts of the identity are equal. */
  predicate OwnsDevice(u: User, uuid: string, mac: string)
  {
    u.uuid == uuid && u.macAddress == mac
  }

  /** Every row the query selects, in table order: the reference the lookup
      is checked against. */
  function Matching(users: seq<User>, uuid: string, mac: string): (r: seq<User>)
    ensures forall u :: u in r ==> u in users && OwnsDevice(u, uuid, mac)
    ensures forall u :: u in users && OwnsDevice(u, uuid, mac) ==> u in r
    ensures |r| == 0 <==> forall i :: 0 <= i < |users| ==> !OwnsDevice(users[i], uuid, mac)
    decreases |users|
  {
    if |users| == 0 then []
    else if OwnsDevice(users[0], uuid, mac) then [users[0]] + Matching(users[1..], uuid, mac)
    else
      assert forall u :: u in users[1..] ==> u in users;
      Matching(users[1..], uuid, mac)
  }

  /** Some row has this uuid: an inner join with `users` on the uuid keeps
      a row that refers to it. */
  predicate Joined(users: seq<User>, uuid: string)
  {
    exists i :: 0 <= i < |users| && users[i].uuid == uuid
  }

  /** The first matching row (the `[0]` of the result records). */
  function FirstMatch(users: seq<User>, uuid: string, mac: string): (r: Option<User>)
    ensures r.None? <==> forall i :: 0 <= i < |users| ==> !OwnsDevice(users[i], uuid, mac)
    ensures r.Some? ==> r.value in users && OwnsDevice(r.value, uuid, mac)
    decreases |users|
  {
    if |users| == 0 then None
    else if OwnsDevice(users[0], uuid, mac) then Some(users[0])
    else
      assert forall i :: 1 <= i < |users| ==> users[i] == users[1..][i - 1];
      FirstMatch(users[1..], uuid, mac)
  }

  /** `get_user_by_device(db, uuid, mac)`: the first row owning the device
      (copied field for field), None when no row matches or when the query
      raises (the exception is logged and swallowed). */
  function GetUserByDevice(users: seq<User>, uuid: string, mac: string, queryFails: bool): (r: Option<User>)
    ensures queryFails ==> r.None?
    ensures !queryFails ==> (r.None? <==> forall i :: 0 <= i < |users| ==> !OwnsDevice(users[i], uuid, mac))
    ensures r.Some? ==> r.value in users && r.value.uuid == uuid && r.value.macAddress == mac
  {
    if queryFails then None else FirstMatch(users, uuid, mac)
  }

  /** The lookup returns the head of the reference selection. */
  lemma {:induction false} GetUserIsFirstOfMatching(users: seq<User>, uuid: string, mac: string)
    ensures GetUserByDevice(users, uuid, mac, false)
         == (if |Matching(users, uuid, mac)| == 0 then None else Some(Matching(users, uuid, mac)[0]))
    decreases |users|
  {
    if |users| > 0 && !OwnsDevice(users[0], uuid, mac) {
      GetUserIsFirstOfMatching(users[1..], uuid, mac);
    }
  }
}

=== FILE: utf8.dfy ===
/** UTF-8 as Python's `str.encode("utf-8")` and `bytes.decode("utf-8")`
    (strict error handler) use it: a Dafny `char` is a Unicode scalar value,
    encoded in one to four bytes; decoding rejects stray continuation bytes,
    overlong forms, surrogates, values above U+10FFFF and truncated
    sequences. */
module Utf8 {
  import opened Wrappers

  type Byte = b: int | 0 <= b < 256

  predicate IsScalar(n: int)
  {
    (0 <= n < 0xD800) || (0xE000 <= n < 0x11_0000)
  }

  predicate IsContinuation(b: Byte)
  {
    0x80 <= b < 0xC0
  }

  /** The bytes of one scalar value. */
  function EncodeChar(c: char): (r: seq<Byte>)
    ensures 1 <= |r| <= 4
    ensures (|r| == 1) <==> (c as int < 0x80)
  {
    var n := c as int;
    if n < 0x80 then [n]
    else if n < 0x800 then [0xC0 + n / 64, 0x80 + n % 64]
    else if n < 0x1_0000 then [0xE0 + n / 4096, 0x80 + (n / 64) % 64, 0x80 + n % 64]
    else [0xF0 + n / 262144, 0x80 + (n / 4096) % 64, 0x80 + (n / 64) % 64, 0x80 + n % 64]
  }

  function Encode(s: string): seq<Byte>
    decreases |s|
  {
    if |s| == 0 then [] else EncodeChar(s[0]) + Encode(s[1..])
  }

  /** The scalar value at the front of `b` and how many bytes it takes, or
      None when the front of `b` is not a well-formed sequence. */
  function DecodeFirst(b: seq<Byte>): (r: Option<(char, nat)>)
    requires |b| > 0
    ensures r.Some? ==> 1 <= r.value.1 <= |b|
  {
    var b0: int := b[0];
    if b0 < 0x80 then Some((b0 as char, 1))
    else if 0xC2 <= b0 < 0xE0 then
      if |b| >= 2 && IsContinuation(b[1]) then
        var b1: int := b[1];
        Some((((b0 - 0xC0) * 64 + (b1 - 0x80)) as char, 2))
      else None
    else if 0xE0 <= b0 < 0xF0 then
      if |b| >= 3 && IsContinuation(b[1]) && IsContinuation(b[2]) then
        var b1: int, b2: int := b[1], b[2];
        var n := (b0 - 0xE0) * 4096 + (b1 - 0x80) * 64 + (b2 - 0x80);
        if 0x800 <= n && IsScalar(n) then Some((n as char, 3)) else None
      else None
    else if 0xF0 <= b0 < 0xF5 then
      if |b| >= 4 && IsContinuation(b[1]) && IsContinuation(b[2]) && IsContinuation(b[3]) then
        var b1: int, b2: int, b3: int := b[1], b[2], b[3];
        var n := (b0 - 0xF0) * 262144 + (b1 - 0x80) * 4096 + (b2 - 0x80) * 64 + (b3 - 0x80);
        if 0x1_0000 <= n < 0x11_0000 then Some((n as char, 4)) else None
      else None
    else None
  }

  function Decode(b: seq<Byte>): Option<string>
    decreases |b|
  {
    if |b| == 0 then Some("")
    else match DecodeFirst(b)
      case None => None
      case Some((c, k)) =>
        match Decode(b[k..])
        case None => None
        case Some(rest) => Some([c] + rest)
  }

  lemma DecodeTwoBytes(n: int, rest: seq<Byte>)
    requires 0x80 <= n < 0x800
    ensures DecodeFirst([0xC0 + n / 64, 0x80 + n % 64] + rest) == Some((n as char, 2))
  {
    assert (n / 64) * 64 + n % 64 == n;
  }

  lemma DecodeThreeBytes(n: int, rest: seq<Byte>)
    requires 0x800 <= n < 0x1_0000 && IsScalar(n)
    ensures DecodeFirst([0xE0 + n / 4096, 0x80 + (n / 64) % 64, 0x80 + n % 64] + rest) == Some((n as char, 3))
  {
    var q := n / 64;
    assert q * 64 + n % 64 == n;
    assert (q / 64) * 64 + q % 64 == q;
    assert q / 64 == n / 4096;
  }

  lemma DecodeFourBytes(n: int, rest: seq<Byte>)
    requires 0x1_0000 <= n < 0x11_0000
    ensures DecodeFirst([0xF0 + n / 262144, 0x80 + (n / 4096) % 64, 0x80 + (n / 64) % 64, 0x80 + n % 64] + rest)
         == Some((n as char, 4))
  {
    var q := n / 64;
    var p := q / 64;
    assert q * 64 + n % 64 == n;
    assert p * 64 + q % 64 == q;
    assert (p / 64) * 64 + p % 64 == p;
    assert p == n / 4096;
    assert p / 64 == n / 262144;
  }

  /** Decoding the encoding of one scalar value gives it back, whatever follows. */
  lemma DecodeFirstEncodeChar(c: char, rest: seq<Byte>)
    ensures DecodeFirst(EncodeChar(c) + rest) == Some((c, |EncodeChar(c)|))
  {
    var n := c as int;
    if n < 0x80 {
    } else if n < 0x800 {
      DecodeTwoBytes(n, rest);
    } else if n < 0x1_0000 {
      DecodeThreeBytes(n, rest);
    } else {
      DecodeFourBytes(n, rest);
    }
  }

  /** Strict UTF-8 decoding inverts encoding for every string of scalar values. */
  lemma {:induction false} DecodeEncode(s: string)
    ensures Decode(Encode(s)) == Some(s)
    decreases |s|
  {
    if |s| > 0 {
      var e := EncodeChar(s[0]);
      var b := Encode(s);
      assert b == e + Encode(s[1..]);
      DecodeFirstEncodeChar(s[0], Encode(s[1..]));
      assert b[|e|..] == Encode(s[1..]);
      DecodeEncode(s[1..]);
      assert [s[0]] + s[1..] == s;
    }
  }

  /** ASCII text encodes to one byte per character. */
  lemma {:induction false} EncodeAsciiLength(s: string)
    requires forall i :: 0 <= i < |s| ==> s[i] as int < 0x80
    ensures |Encode(s)| == |s|
    decreases |s|
  {
    if |s| > 0 {
      EncodeAsciiLength(s[1..]);
    }
  }

  /** A lone 0xFF byte is not UTF-8, so decoding fails. */
  lemma InvalidByteRejected()
    ensures Decode([0xFF]) == None
  {
  }

  /** An encoded surrogate (`ED A0..BF 80..BF`, U+D800..U+DFFF) at the
      front is rejected, whatever follows. */
  lemma SurrogateFirstRejected(b: Byte, c: Byte, rest: seq<Byte>)
    requires 0xA0 <= b < 0xC0 && 0x80 <= c < 0xC0
    ensures Decode([0xED, b, c] + rest) == None
  {
    var s := [0xED, b, c] + rest;
    assert s[0] == 0xED && s[1] == b && s[2] == c;
    var n := (0xED - 0xE0) * 4096 + (b - 0x80) * 64 + (c - 0x80);
    assert 0xD800 <= n < 0xE000;
    assert DecodeFirst(s) == None;
  }

  /** An encoded surrogate anywhere after well-formed text is rejected,
      whatever follows it. */
  lemma {:induction false} SurrogateRejected(p: string, b: Byte, c: Byte, rest: seq<Byte>)
    requires 0xA0 <= b < 0xC0 && 0x80 <= c < 0xC0
    ensures Decode(Encode(p) + [0xED, b, c] + rest) == None
    decreases |p|
  {
    if |p| == 0 {
      assert Encode(p) + [0xED, b, c] + rest == [0xED, b, c] + rest;
      SurrogateFirstRejected(b, c, rest);
    } else {
      var e := EncodeChar(p[0]);
      var tail := Encode(p[1..]) + [0xED, b, c] + rest;
      assert Encode(p) + [0xED, b, c] + rest == e + tail;
      DecodeFirstEncodeChar(p[0], tail);
      assert (e + tail)[|e|..] == tail;
      SurrogateRejected(p[1..], b, c, rest);
    }
  }
}

=== FILE: wrappers.dfy ===
/** Failure-compatible wrappers shared by every module of the model.
    Python's `None` becomes `Option.None`; an exception that escapes a
    function becomes `Result.Err`. */
module Wrappers {

  datatype Option<+T> = None | Some(value: T)

  datatype Result<+T, +E> = Ok(value: T) | Err(error: E)
}
